=== FILE: README.md ===
# Event hub front end: the page logic, modelled in Dafny

This project models the state logic of a React event-booking front end. It covers:

- the six-step event-creation wizard: the draft record, the ticket-tier list, the amenity toggle, and step navigation with its titles and buttons;
- the advanced-filter panel: merging a patch, the active-filter badge, the category and checkbox toggles, and "clear all";
- the register and login submit handlers, and the account-type choice;
- the event preview's derived texts: main price, capacity, location lines, visibility label, and tier boxes;
- the home page's category filter and the id table of its category buttons;
- the event page's gallery, ticket-choice guard, review truncation, and tier boxes;
- the profile page's avatar initials and its name/bio editor;
- the QR panel's download file name, event link, `qrGenerated` flag, and share fallback.

Each page or component is one module: `CreateEvent`, `AdvancedFilters`, `Register`, `Login`, `EventPreview`, `EventIndex`, `EventDetail`, `Profile` and `QrCode`. Three modules are shared:

- `Basics` holds the optional value and the opaque date.
- `Lists` holds the JavaScript array idioms: `filter`, the `includes`-guarded toggle, and filtering one index out.
- `Text` holds the JavaScript string operations the pages use: `trim`, `toLowerCase`, `includes`, and template-literal rendering of numbers.

React state is modelled as immutable records. Each event handler is a pure function from the old state to the new one. The submit handlers' error and welcome texts, the navigation destinations and the QR panel's browser calls are modelled as returned values. The other toasts are left out (see "## Left out").

## Model

| member | source | states |
|---|---|---|
| CreateEvent.UpdateFormData | src/pages/CreateEvent.tsx:89-91 | the written field reads back as the new value, and every other draft field reads as before |
| CreateEvent.DraftExtensionality | src/pages/CreateEvent.tsx:24-48 | two drafts that agree on all 18 fields are equal, so the field-by-field contract of the update pins the whole result |
| CreateEvent.UpdateFormDataLaws | src/pages/CreateEvent.tsx:89-91 | writing back a field's current value changes nothing; of two writes to the same field the last one wins |
| CreateEvent.TierWrite | src/pages/CreateEvent.tsx:103-105 | the named tier field reads back as the new value, and the other three fields keep theirs |
| CreateEvent.AddTier | src/pages/CreateEvent.tsx:93-98 | the list grows by one, the existing tiers stay as a prefix, and the new last tier is the blank tier |
| CreateEvent.UpdateTier | src/pages/CreateEvent.tsx:100-107 | the length is kept; every other tier is untouched; at an in-range index only the named field changes; an out-of-range index changes nothing |
| CreateEvent.RemoveTier | src/pages/CreateEvent.tsx:109-116 | a list of at most one tier is kept; otherwise exactly the tier at the index is removed and the rest keep their order; an out-of-range index changes nothing; a non-empty list stays non-empty |
| CreateEvent.AddThenRemoveLast | src/pages/CreateEvent.tsx:93-116 | removing the tier just added restores the list |
| CreateEvent.UpdateTierSameValue | src/pages/CreateEvent.tsx:100-107 | writing a tier field's own value back leaves the list unchanged |
| CreateEvent.TierListNeverEmpty | src/pages/CreateEvent.tsx:93-116 | any sequence of add, update and remove operations keeps a non-empty tier list non-empty |
| CreateEvent.AddTwiceRemoveFrontTwice | src/pages/CreateEvent.tsx:63-116 | from the initial single "Standard" tier, adding two tiers, naming the third "VIP" and removing the first twice leaves just the "VIP" tier |
| CreateEvent.ToggleAmenity | src/pages/CreateEvent.tsx:118-125 | only the amenity list changes; an unticked amenity is appended at the end; a ticked one is removed everywhere, the others keeping their order and multiplicity; a duplicate-free list stays duplicate-free |
| CreateEvent.ToggleAmenityTwice | src/pages/CreateEvent.tsx:118-125 | toggling an absent amenity twice restores the draft exactly |
| CreateEvent.NextStep | src/pages/CreateEvent.tsx:127-131 | the step stays within 1..6; it moves up by one below 6 and stays at 6 |
| CreateEvent.PrevStep | src/pages/CreateEvent.tsx:133-137 | the step stays within 1..6; it moves down by one above 1 and stays at 1 |
| CreateEvent.NextPrevInverse | src/pages/CreateEvent.tsx:127-137 | "Continua" then "Indietro", or the reverse, returns to the same step wherever both move |
| CreateEvent.StepTitle | src/pages/CreateEvent.tsx:166-176 | a step gets a title other than "Crea Evento" exactly when it is one of the six steps |
| CreateEvent.StepTitlesDistinct | src/pages/CreateEvent.tsx:166-176 | the six step titles are pairwise different and differ from the fallback; every other step number gets "Crea Evento" |
| CreateEvent.SidebarStatus | src/pages/CreateEvent.tsx:612-629 | a sidebar step is current iff it equals the current step, completed iff it is lower, and upcoming iff it is higher |
| CreateEvent.ShowsBack | src/pages/CreateEvent.tsx:681 | "Indietro" is shown exactly when pressing it would move the step |
| CreateEvent.ShowsContinue | src/pages/CreateEvent.tsx:687 | "Continua" is shown exactly when pressing it would move the step |
| CreateEvent.ButtonVisibility | src/pages/CreateEvent.tsx:681-696 | "Continua" is replaced by "Pubblica Evento" exactly at step 6; "Indietro" shows exactly when the step is not 1 |
| CreateEvent.Apply | src/pages/CreateEvent.tsx:63-176 | every wizard action keeps the state valid (step in 1..6, at least one tier, no duplicate amenity); edits keep the step; navigation and the toasts keep the draft |
| CreateEvent.Destination | src/pages/CreateEvent.tsx:153-164 | only publishing navigates anywhere |
| CreateEvent.RunKeepsValid | src/pages/CreateEvent.tsx:63-176 | validity holds after any run of wizard actions |
| CreateEvent.InitialWizardValid | src/pages/CreateEvent.tsx:63-87 | the wizard opens at step 1 with exactly one tier, in a valid state |
| CreateEvent.JumpToLastUngated | src/pages/CreateEvent.tsx:622 | the sidebar reaches step 6 straight from step 1, with no check on the earlier steps |
| AdvancedFilters.Merge | src/components/AdvancedFilters.tsx:73-74 | each field comes from the patch when the patch sets it, and from the old filters otherwise |
| AdvancedFilters.MergeLaws | src/components/AdvancedFilters.tsx:73-74 | an empty patch changes nothing; applying the same patch twice equals applying it once; two merges in a row equal one merge in which the later patch wins on every key it sets |
| AdvancedFilters.Holds | src/components/AdvancedFilters.tsx:78-88 | the location condition holds exactly when the location has a character that is not whitespace |
| AdvancedFilters.ActiveCount | src/components/AdvancedFilters.tsx:76-89 | the badge number is at most 8, and is 0 exactly when no condition holds |
| AdvancedFilters.ActiveConditions | src/components/AdvancedFilters.tsx:78-88 | the active conditions are exactly the listed conditions that hold |
| AdvancedFilters.ActiveCountCountsConditions | src/components/AdvancedFilters.tsx:78-89 | the badge number equals the number of the eight conditions that hold, so it is at most 8 |
| AdvancedFilters.DefaultsInactive | src/components/AdvancedFilters.tsx:60-69 | no condition holds on the default filters, so their count is 0 |
| AdvancedFilters.BlankLocationInactive | src/components/AdvancedFilters.tsx:83 | a location of whitespace only does not count, because `trim` empties it |
| AdvancedFilters.DatesCountByPresence | src/components/AdvancedFilters.tsx:82 | the date condition depends only on which ends of the range are set, never on the dates themselves |
| AdvancedFilters.UpdateFilters | src/components/AdvancedFilters.tsx:73-90 | the stored and the reported filters are both the merge, and the badge matches them |
| AdvancedFilters.ToggleCategory | src/components/AdvancedFilters.tsx:92-97 | only the category list changes; an absent category is appended at the end; a present one is removed everywhere, the others keeping their order and multiplicity; the badge stays accurate |
| AdvancedFilters.MergeListPatch | src/components/AdvancedFilters.tsx:103 | a one-key patch replaces that list and nothing else |
| AdvancedFilters.ArrayToggle | src/components/AdvancedFilters.tsx:99-104 | the keyed list becomes the toggled list; the other lists and the scalar filters are kept; the badge stays accurate |
| AdvancedFilters.CheckboxToggle | src/components/AdvancedFilters.tsx:99-104 | a checkbox toggle on the current list flips that item's membership |
| AdvancedFilters.ClearAll | src/components/AdvancedFilters.tsx:106-120 | the panel returns to the defaults with a zero badge, reports the defaults, and no condition holds |
| AdvancedFilters.BadgeAlwaysAccurate | src/components/AdvancedFilters.tsx:73-120 | after any run of panel actions the badge equals the count of the stored filters and lies within 0..8 |
| AdvancedFilters.InitialPanelConsistent | src/components/AdvancedFilters.tsx:60-71 | the panel opens with an accurate zero badge, and clearing the opening panel changes nothing |
| Register.HandleSubmit | src/pages/Register.tsx:37-82 | the checks run in order (required fields, then matching passwords, then accepted terms), each message iff its check is the first to fail; success iff all pass; on success the destination is the host dashboard iff the account type is "host", otherwise the profile |
| Register.OptionalFieldsIgnored | src/pages/Register.tsx:37-82 | city and marketing consent never change the outcome |
| Register.EmptyConfirmationIsMismatch | src/pages/Register.tsx:50-57 | the submit handler, given the required fields filled and an empty confirmation, reports a mismatch |
| Register.InitialFormRejected | src/pages/Register.tsx:25-48 | the submit handler, given the untouched form, reports missing fields |
| Register.SelectAccountType | src/pages/Register.tsx:128-138 | the account type becomes the chosen one and nothing else changes |
| Register.AccountTypeDecidesDestination | src/pages/Register.tsx:75-81 | for a form that registers, choosing "host" leads to the dashboard and "user" to the profile, with the same welcome |
| Login.HandleSubmit | src/pages/Login.tsx:27-48 | sign-in iff both email and password are non-empty, then to "/profile"; otherwise the one error message |
| Login.TogglePasswordVisibility | src/pages/Login.tsx:156 | the eye button flips visibility and keeps the form |
| Login.VisibilityIrrelevant | src/pages/Login.tsx:21-48 | toggling twice restores the page, and visibility never changes the submit outcome |
| Login.InitialPageRejected | src/pages/Login.tsx:21-25 | the submit handler, given the untouched form, returns the error |
| EventPreview.MainTicketPrice | src/components/EventPreview.tsx:49-54 | the placeholder iff there is no tier or the first tier has no price, otherwise "€" followed by that price |
| EventPreview.MainPriceReadsFirstTierOnly | src/components/EventPreview.tsx:49-54 | tiers after the first never change the main price |
| EventPreview.TotalCapacity | src/components/EventPreview.tsx:56-61 | the placeholder iff the capacity field is empty; a filled field never yields the placeholder |
| EventPreview.FormatTime | src/components/EventPreview.tsx:44-47 | a time is shown unchanged, and empty stays empty |
| EventPreview.FormatMissingDate | src/components/EventPreview.tsx:34-35 | "Data da definire" iff no date is chosen |
| EventPreview.HeaderPlace | src/components/EventPreview.tsx:112-122 | an online event shows the fixed online lines; a physical one shows location and address, each with its own placeholder |
| EventPreview.SidebarPlace | src/components/EventPreview.tsx:233-253 | the location card shows the online texts, or "Posizione" with the same place lines as the header |
| EventPreview.OnlineIgnoresAddress | src/components/EventPreview.tsx:112-122 | for an online event, location and address never reach the screen |
| EventPreview.PhysicalShowsFields | src/components/EventPreview.tsx:112-122 | a physical event with both fields filled shows them verbatim in header and card |
| EventPreview.VisibilityLabel | src/components/EventPreview.tsx:139-140 | "Pubblico" iff public, "Privato" iff private, "Su invito" for anything else |
| EventPreview.TierName | src/components/EventPreview.tsx:195 | a named tier shows its name; an unnamed one shows "Biglietto " and digits, with no leading zero, that read back as its position plus one |
| EventPreview.UnnamedTiersDistinct | src/components/EventPreview.tsx:195 | unnamed tiers at different positions get different labels |
| EventPreview.TierBox | src/components/EventPreview.tsx:191-212 | each box line is its field or that line's own placeholder |
| EventPreview.TicketColumnOf | src/components/EventPreview.tsx:191-212 | the "no tiers" notice iff the list is empty, otherwise one box per tier, in order |
| EventPreview.ShowsAmenities | src/components/EventPreview.tsx:160 | the amenities section appears exactly when some amenity is ticked |
| EventPreview.AmenityToggleShowsSection | src/components/EventPreview.tsx:160-170 | were the component given the wizard's draft, ticking an amenity would show the section, and unticking one would hide it exactly when no other amenity is ticked |
| EventPreview.WizardDraftHasTierBoxes | src/components/EventPreview.tsx:191 | were the component given a draft the wizard can reach, its ticket column would be tier boxes and never the notice |
| EventPreview.InitialDraftPreview | src/components/EventPreview.tsx:49-212 | were the component given the wizard's opening draft, it would show every placeholder and one "Standard" box |
| EventIndex.FilteredEvents | src/pages/Index.tsx:109-111 | "all" shows the list unchanged; any other id keeps, in their original order, the events whose lowercased category contains the id, each as often as the list holds it, and no other event |
| EventIndex.MusicSelectsBothConcerts | src/pages/Index.tsx:18-111 | on the page's own list, the "music" button shows the two "Musica" events in page order |
| EventIndex.MockPhotoButtonFindsNothing | src/pages/Index.tsx:18-111 | on the page's own list, the "photo" button, labelled "Fotografia", shows nothing |
| EventIndex.PhotoButtonFindsNothing | src/components/CategoryFilter.tsx:8 | on any list with the page's categories, the "photo" filter is empty although a "Fotografia" event exists |
| EventIndex.SportsButtonMissesSport | src/components/CategoryFilter.tsx:7 | the "sports" button does not accept the "Sport" event |
| EventIndex.FilteredEventsByName | src/components/CategoryFilter.tsx:4-14 | the corrected filter: "all" shows everything; any other id keeps, in order and with their multiplicity, the events whose category is the name of the button with that id, and no other event |
| EventIndex.PhotoButtonFindsFotografia | src/components/CategoryFilter.tsx:8 | with the corrected filter, "photo" shows exactly the photography event |
| EventDetail.SelectImage | src/pages/EventDetail.tsx:158 | a thumbnail click shows that image and keeps the ticket choice and the review state |
| EventDetail.ClickTicket | src/pages/EventDetail.tsx:352 | the clicked tier becomes the selection iff it has tickets left (or is already selected); otherwise nothing changes |
| EventDetail.ClickKeepsSelectionAvailable | src/pages/EventDetail.tsx:352 | a click never moves the selection onto a sold-out tier |
| EventDetail.SoldOutClickIgnored | src/pages/EventDetail.tsx:352 | clicking a sold-out tier leaves the page unchanged |
| EventDetail.ShownReviews | src/pages/EventDetail.tsx:265 | the shown reviews are a prefix of the list: all of them when expanded, the first min(3, n) when collapsed |
| EventDetail.ShowsAllButton | src/pages/EventDetail.tsx:282 | while the button shows there are more than three reviews and the first three are listed; otherwise every review is listed |
| EventDetail.ButtonIffHiddenReviews | src/pages/EventDetail.tsx:282-285 | the "show all" button is on screen exactly when some review is hidden |
| EventDetail.CollapsedIsPrefix | src/pages/EventDetail.tsx:265 | the collapsed list is a prefix of the expanded list |
| EventDetail.Apply | src/pages/EventDetail.tsx:125-352 | every page action keeps the indices in range and the selection available, and never collapses expanded reviews |
| EventDetail.RunKeepsValid | src/pages/EventDetail.tsx:125-352 | the same holds after any run of page actions |
| EventDetail.InitialStateValid | src/pages/EventDetail.tsx:72-97 | the page opens on the first image with the "Standard" tier chosen, a tier that has tickets left |
| EventDetail.EarlyBirdNeverSelected | src/pages/EventDetail.tsx:72-79 | on the page's event, the sold-out "Early Bird" tier is never the selection |
| EventDetail.MockReviewsNeedNoButton | src/pages/EventDetail.tsx:98-120 | with the event's three reviews the button never shows and all reviews are listed |
| EventDetail.TicketBox | src/pages/EventDetail.tsx:345-373 | name, price and description are the tier's own; the count line is the stock, "/", and the total; the struck-through price appears iff it differs from the price; "Esaurito" iff no tickets are left, otherwise digits without a leading zero that read back as the stock, then " disponibili"; dimmed iff the stock is exactly zero |
| EventDetail.IntToString | src/pages/EventDetail.tsx:371 | a stock or total is written as its decimal digits, with a minus sign when negative |
| Profile.SplitOnSpace | src/pages/Profile.tsx:136 | the pieces contain no space and number one more than the spaces |
| Profile.SplitJoin | src/pages/Profile.tsx:136 | joining the pieces with single spaces gives the name back |
| Profile.JoinSplit | src/pages/Profile.tsx:136 | splitting a join of space-free pieces gives the pieces back |
| Profile.InitialsOfParts | src/pages/Profile.tsx:136 | at most one letter per piece, and every non-empty piece contributes its first character |
| Profile.Initials | src/pages/Profile.tsx:136 | the avatar text has at most one character per space-separated piece, and never a space or a character absent from the name |
| Profile.InitialsAreWordStarts | src/pages/Profile.tsx:136 | the initials are exactly the characters that open a word of the name, in order, and never a space |
| Profile.InitialsOfTwoWords | src/pages/Profile.tsx:136 | a name of two space-free words joined by one space shows the first letter of each, in order |
| Profile.MockUserInitials | src/pages/Profile.tsx:24-32 | "Marco Rossi" gives "MR" |
| Profile.ToggleEditing | src/pages/Profile.tsx:126 | the pencil flips the editor and keeps the record |
| Profile.ToggleTwice | src/pages/Profile.tsx:126 | toggling twice restores the page |
| Profile.CloseEditor | src/pages/Profile.tsx:105-154 | "Salva" (through its handler) and "Annulla" both close the editor and keep the record as edited |
| Profile.EditsSurviveClosing | src/pages/Profile.tsx:144-154 | after editing name and bio, closing the editor by either button keeps exactly those two edits |
| Profile.EditName | src/pages/Profile.tsx:144 | the name becomes the typed text, and nothing else changes |
| Profile.EditBio | src/pages/Profile.tsx:149 | the bio becomes the typed text, and nothing else changes |
| Profile.EditsCommute | src/pages/Profile.tsx:144-149 | name and bio edits may happen in either order |
| QrCode.CollapseSpaces | src/components/QRCodeGenerator.tsx:86 | the result holds no whitespace, is never longer, and leaves whitespace-free text unchanged |
| QrCode.RunBecomesOneDash | src/components/QRCodeGenerator.tsx:86 | a maximal whitespace run of any length becomes exactly one dash |
| QrCode.CollapseKeepsText | src/components/QRCodeGenerator.tsx:86 | the characters that are neither whitespace nor a dash survive unchanged and in order |
| QrCode.LowerKeepsText | src/components/QRCodeGenerator.tsx:86 | lowercasing commutes with keeping those characters |
| QrCode.DownloadFileName | src/components/QRCodeGenerator.tsx:86 | the name is "qr-", then the title with each whitespace run collapsed to one dash and lowercased, then ".svg"; that slug has no whitespace, and its text characters are the title's, lowercased and in order |
| QrCode.DownloadRunBecomesOneDash | src/components/QRCodeGenerator.tsx:86 | in the download name, a word, a whitespace run of any length, and the rest become the lowercased word, one dash, and the lowercased collapsed rest |
| QrCode.EventUrl | src/components/QRCodeGenerator.tsx:19 | the link is the origin, then "/event/", then the event id |
| QrCode.EventIdOf | src/components/QRCodeGenerator.tsx:19 | a link parses iff it starts with the origin and "/event/", and a parsed id rebuilds the link |
| QrCode.EventUrlRoundTrip | src/components/QRCodeGenerator.tsx:19 | parsing the link of an event gives its id back |
| QrCode.EventUrlInjective | src/components/QRCodeGenerator.tsx:19 | different events on one origin get different links |
| QrCode.CopyLinkEffect | src/components/QRCodeGenerator.tsx:98-104 | "Copia Link" writes the link of this event to the clipboard |
| QrCode.ShareEffect | src/components/QRCodeGenerator.tsx:106-116 | the native sheet iff the browser offers one, with the title, "Partecipa a: " and the title, and this event's link; otherwise the same effect as "Copia Link" |
| QrCode.Press | src/components/QRCodeGenerator.tsx:72-177 | the flag is set iff it was set or the press was "Genera"; only "Scarica" downloads, under the slugged name; "Condividi" has the share effect and "Copia Link" the copy effect; only "Genera" has no browser effect |
| QrCode.GeneratedNeverReverts | src/components/QRCodeGenerator.tsx:16-116 | once generated, the code stays generated through any run of presses |
| QrCode.FirstPressGenerates | src/components/QRCodeGenerator.tsx:120-177 | the panel opens with only "Genera" on offer, so any run of presses starts with it and ends generated |
| Lists.Filter | src/pages/Index.tsx:111 | `filter`: a subsequence of the input holding every passing element as often as the input does and no failing element |
| Lists.FilterUnique | src/pages/Index.tsx:111 | that contract pins the list: any subsequence of the input with those multiplicities is the filter itself |
| Lists.RemoveAll | src/components/AdvancedFilters.tsx:94 | `filter(c => c !== x)`: a subsequence with no `x` and every other element as often as before; an absent `x` changes nothing |
| Lists.Toggle | src/components/AdvancedFilters.tsx:99-102 | the `includes`-guarded toggle: an absent item is appended at the end; a present item is removed everywhere, the other elements keeping their order and multiplicity |
| Lists.ToggleTwiceAbsent | src/pages/CreateEvent.tsx:118-125 | toggling an absent item twice restores the list exactly |
| Lists.ToggleKeepsNoDuplicates | src/pages/CreateEvent.tsx:118-125 | a duplicate-free list stays duplicate-free under toggling |
| Lists.RemoveAt | src/pages/CreateEvent.tsx:113 | removing an in-range index gives the elements before and after it; an out-of-range index changes nothing |
| Text.TrimNonEmptyIff | src/components/AdvancedFilters.tsx:83 | `trim()` is non-empty exactly when the text has a non-whitespace character |
| Text.Trim | src/components/AdvancedFilters.tsx:83 | `trim()` is a slice of the text that neither starts nor ends with whitespace, with only whitespace cut off on either side |
| Text.Lower | src/pages/Index.tsx:111 | `toLowerCase` keeps the length and lowercases character by character |
| Text.Contains | src/pages/Index.tsx:111 | `includes` holds exactly when the needle occurs at some position |
| Text.NatToStringRoundTrip | src/components/EventPreview.tsx:195 | the decimal rendering of a number reads back as that number |

## Left out

- Toasts are modelled only for Register's three error texts and its welcome (src/pages/Register.tsx:42-69) and for Login's error text (src/pages/Login.tsx:42). The other toasts are left out because each only shows a fixed or title-filled text and decides nothing:
  - Login's success and social-login toasts (src/pages/Login.tsx:32, 51);
  - the wizard's three toasts (src/pages/CreateEvent.tsx:140, 147, 155);
  - the QR panel's three toasts (src/components/QRCodeGenerator.tsx:74, 92, 100);
  - Register's social-login toast (src/pages/Register.tsx:85).
- `setTimeout` delays and `navigate`: only the decided outcome and destination are returned. The navigate-after-delay race is not modelled.
- Dates are opaque: date-fns `format`, the calendar's `disabled` predicates against the current clock, and `toLocaleDateString` in the preview are not modelled. The preview models only the "Data da definire" branch.
- The progress-bar width at src/pages/CreateEvent.tsx:599 uses floating point. It is not modelled.
- HostDashboard is not part of this model. It is mock data, floating-point percentages and a status lookup.
- Browser APIs in the QR panel (Blob, object URLs, anchor clicks, `navigator.clipboard`, `navigator.share`) are modelled only as the returned effect. Whether native sharing exists is a parameter. The hard-coded SVG text is a constant and is left out.
- `window.location.origin` is a parameter of `QrCode.EventUrl`.
- Rendering, CSS classes and icons are left out: Header, Footer, HeroSection, EventCard, EventCarousel and App routing.
- `EventPreview` is not mounted by any page: the wizard's "Anteprima" button only shows a toast (src/pages/CreateEvent.tsx:146-151). The lemmas that feed it the wizard's draft (`EventPreview.WizardDraftHasTierBoxes`, `EventPreview.InitialDraftPreview`, `EventPreview.AmenityToggleShowsSection`) state what it would show if it were given that draft.
- The wizard's preview toast, the social-login buttons and Register's per-field input setters are left out: each sets one field or shows a toast.
- Native form validation is not modelled. The required inputs carry `required`, the email inputs have `type="email"`, and neither form sets `noValidate` (src/pages/Register.tsx:184-272, src/pages/Login.tsx:124-152). So in a browser an empty required field or a malformed email stops the submit before `handleSubmit` runs. `Register.HandleSubmit` and `Login.HandleSubmit` and the lemmas about them describe the handlers alone; their missing-field branches are reachable only where the browser skips that validation.
- Register's two password-eye toggles are left out. They behave like `Login.TogglePasswordVisibility`.
- Profile statistics, preferences, the wishlist and the settings tabs are display-only data and are left out.
- Profile.Initials: takes the first Unicode character of each word, while `n[0]` takes one UTF-16 code unit. A word that opens with a character outside the Basic Multilingual Plane ("𝒜lice") shows a lone surrogate in the page and the whole character in the model. The same holds for `Profile.InitialsOfParts`. Strings here are sequences of Unicode scalar values, not UTF-16 code units.
- Text.Lower: lowercases ASCII letters only. JavaScript's `toLowerCase` also maps non-ASCII letters; every literal the pages compare against is ASCII.
- QrCode.DownloadFileName: lowercases ASCII capitals only, through `Text.Lower`. The page's `toLowerCase` (src/components/QRCodeGenerator.tsx:86) works on the free `eventTitle` prop, so a title with non-ASCII capitals keeps their case in the model: "Èvento Roma" gives "qr-èvento-roma.svg" on the page and "qr-Èvento-roma.svg" here. Mappings that change length, such as U+0130, are not modelled either. The one title the pages pass (src/pages/EventDetail.tsx:25, passed at line 402) is ASCII.
- CreateEvent.RemoveTier: reads the list it is given. The source's guard reads the rendered `formData`, which equals the list under React's one-event-per-render order; batched updates are not modelled.
- CreateEvent.Apply: the wizard's field edits never target the tier list, the images or the amenities. The page edits those only through their own handlers, and the images input is never wired.
- The amenities are an array in toggle order, as the code keeps them (`Lists.Toggle`): a ticked amenity goes to the end.
- Input length limits and number parsing of the capacity and quantity fields are left out. The draft stores the raw strings, as the code does.

## Findings

| source | as written | input that shows it | evidently intended | confidence | as-written member | corrected member |
|---|---|---|---|---|---|---|
| src/pages/Index.tsx:111 with src/components/CategoryFilter.tsx:7-8 | a button selects the events whose lowercased category contains the button's English id | the "photo" button, labelled "Fotografia", on the page's list: the "Fotografia" event is not shown, and neither is the "Sport" event under "sports" | a button selects the events whose category is the button's own name | not executed | EventIndex.PhotoButtonFindsNothing | EventIndex.FilteredEventsByName |

=== FILE: advanced_filters.dfy ===
/** The advanced-filter panel: its state, the merge update with its active-filter count, the
    checkbox toggles and the reset. */
module AdvancedFilters {
  import opened Basics
  import Lists
  import Text

  datatype DateRange = DateRange(from: Option<Date>, to: Option<Date>)

  /** Prices and distances come from sliders with integer steps, so they are integers here. */
  datatype FilterState = FilterState(
    category: seq<string>,
    priceRange: (int, int),
    dateRange: DateRange,
    location: string,
    distance: int,
    timeOfDay: seq<string>,
    eventType: seq<string>,
    amenities: seq<string>)

  /** `Partial<FilterState>`: the keys a caller supplies. */
  datatype FilterPatch = FilterPatch(
    category: Option<seq<string>>,
    priceRange: Option<(int, int)>,
    dateRange: Option<DateRange>,
    location: Option<string>,
    distance: Option<int>,
    timeOfDay: Option<seq<string>>,
    eventType: Option<seq<string>>,
    amenities: Option<seq<string>>)

  const NoChange := FilterPatch(None, None, None, None, None, None, None, None)

  /** Both the opening state and the state a reset writes. */
  const DefaultFilters := FilterState([], (0, 200), DateRange(None, None), "", 50, [], [], [])

  /** The eight conditions that make up the badge count. */
  datatype Condition = CategoryChosen | PriceNarrowed | DatesChosen | LocationTyped | DistanceNarrowed
                     | TimeChosen | TypeChosen | AmenityChosen

  const AllConditions := [CategoryChosen, PriceNarrowed, DatesChosen, LocationTyped, DistanceNarrowed,
                          TimeChosen, TypeChosen, AmenityChosen]

  /** Whether condition `c` holds: a date bound counts by its mere presence, a location by any
      character that is not whitespace. */
  function Holds(f: FilterState, c: Condition): (r: bool)
    ensures c == LocationTyped ==> (r <==> exists i :: 0 <= i < |f.location| && !Text.IsSpace(f.location[i]))
  {
    Text.TrimNonEmptyIff(f.location);
    match c
    case CategoryChosen => |f.category| > 0
    case PriceNarrowed => f.priceRange.0 > 0 || f.priceRange.1 < 200
    case DatesChosen => f.dateRange.from.Some? || f.dateRange.to.Some?
    case LocationTyped => Text.Trim(f.location) != []
    case DistanceNarrowed => f.distance < 50
    case TimeChosen => |f.timeOfDay| > 0
    case TypeChosen => |f.eventType| > 0
    case AmenityChosen => |f.amenities| > 0
  }

  function Indicator(b: bool): nat {
    if b then 1 else 0
  }

  /** The count as the handler accumulates it, one `count++` per condition that holds. */
  function ActiveCount(f: FilterState): (r: nat)
    ensures r <= 8
    ensures r == 0 <==> forall c :: !Holds(f, c)
  {
    assert Holds(f, LocationTyped) <==> Text.Trim(f.location) != [];
    NoConditionIffNoneOfEight(f);
    Indicator(|f.category| > 0)
    + Indicator(f.priceRange.0 > 0 || f.priceRange.1 < 200)
    + Indicator(f.dateRange.from.Some? || f.dateRange.to.Some?)
    + Indicator(Text.Trim(f.location) != [])
    + Indicator(f.distance < 50)
    + Indicator(|f.timeOfDay| > 0)
    + Indicator(|f.eventType| > 0)
    + Indicator(|f.amenities| > 0)
  }

  /** No condition holds exactly when none of the eight, taken one at a time, does. */
  lemma NoConditionIffNoneOfEight(f: FilterState)
    ensures (forall c :: !Holds(f, c)) <==>
      !Holds(f, CategoryChosen) && !Holds(f, PriceNarrowed) && !Holds(f, DatesChosen) &&
      !Holds(f, LocationTyped) && !Holds(f, DistanceNarrowed) && !Holds(f, TimeChosen) &&
      !Holds(f, TypeChosen) && !Holds(f, AmenityChosen)
  {
    if !Holds(f, CategoryChosen) && !Holds(f, PriceNarrowed) && !Holds(f, DatesChosen) &&
       !Holds(f, LocationTyped) && !Holds(f, DistanceNarrowed) && !Holds(f, TimeChosen) &&
       !Holds(f, TypeChosen) && !Holds(f, AmenityChosen) {
      forall c ensures !Holds(f, c) {
        match c
        case CategoryChosen =>
        case PriceNarrowed =>
        case DatesChosen =>
        case LocationTyped =>
        case DistanceNarrowed =>
        case TimeChosen =>
        case TypeChosen =>
        case AmenityChosen =>
      }
    }
  }

  /** The conditions of `cs` that hold, in order. */
  function ActiveConditions(f: FilterState, cs: seq<Condition>): (r: seq<Condition>)
    ensures forall c :: c in r <==> c in cs && Holds(f, c)
    ensures |r| <= |cs|
  {
    Lists.Filter(cs, c => Holds(f, c))
  }

  /** How many conditions of `cs` hold, counted one by one. */
  function CountHolding(f: FilterState, cs: seq<Condition>): nat {
    if cs == [] then 0 else Indicator(Holds(f, cs[0])) + CountHolding(f, cs[1..])
  }

  lemma {:induction false} CountHoldingIsLength(f: FilterState, cs: seq<Condition>)
    ensures CountHolding(f, cs) == |ActiveConditions(f, cs)|
  {
    if cs != [] {
      CountHoldingIsLength(f, cs[1..]);
    }
  }

  lemma CountHoldingCons(f: FilterState, c: Condition, cs: seq<Condition>)
    ensures CountHolding(f, [c] + cs) == Indicator(Holds(f, c)) + CountHolding(f, cs)
  {
    assert ([c] + cs)[1..] == cs;
  }

  /** The eight conditions counted one at a time. */
  lemma CountAllConditions(f: FilterState)
    ensures CountHolding(f, AllConditions)
         == Indicator(Holds(f, CategoryChosen)) + Indicator(Holds(f, PriceNarrowed))
          + Indicator(Holds(f, DatesChosen)) + Indicator(Holds(f, LocationTyped))
          + Indicator(Holds(f, DistanceNarrowed)) + Indicator(Holds(f, TimeChosen))
          + Indicator(Holds(f, TypeChosen)) + Indicator(Holds(f, AmenityChosen))
  {
    CountHoldingCons(f, AmenityChosen, []);
    CountHoldingCons(f, TypeChosen, [AmenityChosen]);
    CountHoldingCons(f, TimeChosen, [TypeChosen, AmenityChosen]);
    CountHoldingCons(f, DistanceNarrowed, [TimeChosen, TypeChosen, AmenityChosen]);
    CountHoldingCons(f, LocationTyped, [DistanceNarrowed, TimeChosen, TypeChosen, AmenityChosen]);
    CountHoldingCons(f, DatesChosen, [LocationTyped, DistanceNarrowed, TimeChosen, TypeChosen, AmenityChosen]);
    CountHoldingCons(f, PriceNarrowed,
      [DatesChosen, LocationTyped, DistanceNarrowed, TimeChosen, TypeChosen, AmenityChosen]);
    CountHoldingCons(f, CategoryChosen,
      [PriceNarrowed, DatesChosen, LocationTyped, DistanceNarrowed, TimeChosen, TypeChosen, AmenityChosen]);
  }

  /** Each `if` of the handler tests one of the eight conditions. */
  lemma ActiveCountIsSum(f: FilterState)
    ensures ActiveCount(f)
         == Indicator(Holds(f, CategoryChosen)) + Indicator(Holds(f, PriceNarrowed))
          + Indicator(Holds(f, DatesChosen)) + Indicator(Holds(f, LocationTyped))
          + Indicator(Holds(f, DistanceNarrowed)) + Indicator(Holds(f, TimeChosen))
          + Indicator(Holds(f, TypeChosen)) + Indicator(Holds(f, AmenityChosen))
  {
    assert Holds(f, CategoryChosen) == (|f.category| > 0);
    assert Holds(f, PriceNarrowed) == (f.priceRange.0 > 0 || f.priceRange.1 < 200);
    assert Holds(f, DatesChosen) == (f.dateRange.from.Some? || f.dateRange.to.Some?);
    assert Holds(f, LocationTyped) == (Text.Trim(f.location) != []);
    assert Holds(f, DistanceNarrowed) == (f.distance < 50);
    assert Holds(f, TimeChosen) == (|f.timeOfDay| > 0);
    assert Holds(f, TypeChosen) == (|f.eventType| > 0);
    assert Holds(f, AmenityChosen) == (|f.amenities| > 0);
  }

  /** The badge shows how many of the eight conditions hold. */
  lemma ActiveCountCountsConditions(f: FilterState)
    ensures ActiveCount(f) == |ActiveConditions(f, AllConditions)|
    ensures ActiveCount(f) <= 8
  {
    ActiveCountIsSum(f);
    CountAllConditions(f);
    CountHoldingIsLength(f, AllConditions);
  }

  /** No condition holds of the defaults. */
  lemma DefaultsInactive(c: Condition)
    ensures !Holds(DefaultFilters, c)
    ensures ActiveCount(DefaultFilters) == 0
  {
  }

  /** A location made only of whitespace does not count. */
  lemma BlankLocationInactive(f: FilterState)
    requires forall i :: 0 <= i < |f.location| ==> Text.IsSpace(f.location[i])
    ensures !Holds(f, LocationTyped)
  {
    Text.TrimNonEmptyIff(f.location);
  }

  /** The date condition looks only at which bounds are present, not at the dates. */
  lemma DatesCountByPresence(f: FilterState, from: Option<Date>, to: Option<Date>)
    requires from.Some? == f.dateRange.from.Some? && to.Some? == f.dateRange.to.Some?
    ensures Holds(f.(dateRange := DateRange(from, to)), DatesChosen) == Holds(f, DatesChosen)
  {
  }

  /** `{ ...filters, ...newFilters }`. */
  function Merge(f: FilterState, p: FilterPatch): (r: FilterState)
    ensures p.category.None? ==> r.category == f.category
    ensures p.priceRange.None? ==> r.priceRange == f.priceRange
    ensures p.dateRange.None? ==> r.dateRange == f.dateRange
    ensures p.location.None? ==> r.location == f.location
    ensures p.distance.None? ==> r.distance == f.distance
    ensures p.timeOfDay.None? ==> r.timeOfDay == f.timeOfDay
    ensures p.eventType.None? ==> r.eventType == f.eventType
    ensures p.amenities.None? ==> r.amenities == f.amenities
    ensures p.category.Some? ==> r.category == p.category.value
    ensures p.priceRange.Some? ==> r.priceRange == p.priceRange.value
    ensures p.dateRange.Some? ==> r.dateRange == p.dateRange.value
    ensures p.location.Some? ==> r.location == p.location.value
    ensures p.distance.Some? ==> r.distance == p.distance.value
    ensures p.timeOfDay.Some? ==> r.timeOfDay == p.timeOfDay.value
    ensures p.eventType.Some? ==> r.eventType == p.eventType.value
    ensures p.amenities.Some? ==> r.amenities == p.amenities.value
  {
    FilterState(
      p.category.GetOr(f.category), p.priceRange.GetOr(f.priceRange), p.dateRange.GetOr(f.dateRange),
      p.location.GetOr(f.location), p.distance.GetOr(f.distance), p.timeOfDay.GetOr(f.timeOfDay),
      p.eventType.GetOr(f.eventType), p.amenities.GetOr(f.amenities))
  }

  /** The later of two optional keys when it is set, otherwise the earlier. */
  function Override<T>(earlier: Option<T>, later: Option<T>): (r: Option<T>)
    ensures r.Some? <==> earlier.Some? || later.Some?
    ensures later.Some? ==> r == later
  {
    if later.Some? then later else earlier
  }

  /** The single patch that does what `p` then `q` do. */
  function Then(p: FilterPatch, q: FilterPatch): FilterPatch {
    FilterPatch(
      Override(p.category, q.category), Override(p.priceRange, q.priceRange),
      Override(p.dateRange, q.dateRange), Override(p.location, q.location),
      Override(p.distance, q.distance), Override(p.timeOfDay, q.timeOfDay),
      Override(p.eventType, q.eventType), Override(p.amenities, q.amenities))
  }

  /** Merging an empty patch changes nothing, a patch is idempotent, and two merges in a row are
      one merge in which the later patch wins on every key it sets. */
  lemma MergeLaws(f: FilterState, p: FilterPatch, q: FilterPatch)
    ensures Merge(f, NoChange) == f
    ensures Merge(Merge(f, p), p) == Merge(f, p)
    ensures Merge(Merge(f, p), q) == Merge(f, Then(p, q))
  {
  }

  /** The component's state: the filters and the badge count. */
  datatype Panel = Panel(filters: FilterState, activeCount: int)

  const InitialPanel := Panel(DefaultFilters, 0)

  /** The stored count agrees with the stored filters. */
  predicate Consistent(p: Panel) {
    p.activeCount == ActiveCount(p.filters)
  }

  /** The outcome of a handler: the new state and the value passed to `onFiltersChange`. */
  datatype Change = Change(panel: Panel, reported: FilterState)

  /** `updateFilters(newFilters)`: the merged state is stored, reported to the parent and counted. */
  function UpdateFilters(p: Panel, patch: FilterPatch): (r: Change)
    ensures r.reported == r.panel.filters == Merge(p.filters, patch)
    ensures Consistent(r.panel)
  {
    var updated := Merge(p.filters, patch);
    Change(Panel(updated, ActiveCount(updated)), updated)
  }

  /** `handleCategoryToggle(category)`: the category list toggles and no other key moves. */
  function ToggleCategory(p: Panel, c: string): (r: Change)
    ensures r.panel.filters == p.filters.(category := r.panel.filters.category)
    ensures c in r.panel.filters.category <==> c !in p.filters.category
    ensures forall d :: d != c ==> (d in r.panel.filters.category <==> d in p.filters.category)
    ensures c !in p.filters.category ==> r.panel.filters.category == p.filters.category + [c]
    ensures c in p.filters.category ==> Lists.IsSubsequence(r.panel.filters.category, p.filters.category)
    ensures c in p.filters.category ==>
      forall d :: multiset(r.panel.filters.category)[d] ==
        if d == c then 0 else multiset(p.filters.category)[d]
    ensures r.reported == r.panel.filters && Consistent(r.panel)
  {
    UpdateFilters(p, NoChange.(category := Some(Lists.Toggle(p.filters.category, c))))
  }

  /** The three checkbox groups `handleArrayToggle` is used for. */
  datatype ListKey = TimeOfDayKey | EventTypeKey | AmenitiesKey

  function ListOf(f: FilterState, k: ListKey): seq<string> {
    match k
    case TimeOfDayKey => f.timeOfDay
    case EventTypeKey => f.eventType
    case AmenitiesKey => f.amenities
  }

  /** The patch `{ [key]: list }`. */
  function ListPatch(k: ListKey, l: seq<string>): FilterPatch {
    match k
    case TimeOfDayKey => NoChange.(timeOfDay := Some(l))
    case EventTypeKey => NoChange.(eventType := Some(l))
    case AmenitiesKey => NoChange.(amenities := Some(l))
  }

  /** Merging `{ [key]: list }` writes that group and nothing else. */
  lemma MergeListPatch(f: FilterState, k: ListKey, l: seq<string>)
    ensures ListOf(Merge(f, ListPatch(k, l)), k) == l
    ensures forall k' :: k' != k ==> ListOf(Merge(f, ListPatch(k, l)), k') == ListOf(f, k')
    ensures Merge(f, ListPatch(k, l)).category == f.category
    ensures Merge(f, ListPatch(k, l)).priceRange == f.priceRange
    ensures Merge(f, ListPatch(k, l)).dateRange == f.dateRange
    ensures Merge(f, ListPatch(k, l)).location == f.location
    ensures Merge(f, ListPatch(k, l)).distance == f.distance
  {
  }

  /** `handleArrayToggle(array, item, key)`: the toggled list is stored under `key`; every other
      key keeps its value. */
  function ArrayToggle(p: Panel, list: seq<string>, item: string, k: ListKey): (r: Change)
    ensures ListOf(r.panel.filters, k) == Lists.Toggle(list, item)
    ensures forall k' :: k' != k ==> ListOf(r.panel.filters, k') == ListOf(p.filters, k')
    ensures r.panel.filters.category == p.filters.category
    ensures r.panel.filters.priceRange == p.filters.priceRange
    ensures r.panel.filters.dateRange == p.filters.dateRange
    ensures r.panel.filters.location == p.filters.location
    ensures r.panel.filters.distance == p.filters.distance
    ensures r.reported == r.panel.filters && Consistent(r.panel)
  {
    MergeListPatch(p.filters, k, Lists.Toggle(list, item));
    UpdateFilters(p, ListPatch(k, Lists.Toggle(list, item)))
  }

  /** Every checkbox passes the group's current list, so a click adds an absent item at the end or
      removes a present one. */
  lemma CheckboxToggle(p: Panel, item: string, k: ListKey)
    ensures var l := ListOf(ArrayToggle(p, ListOf(p.filters, k), item, k).panel.filters, k);
            (item !in ListOf(p.filters, k) ==> l == ListOf(p.filters, k) + [item])
            && (item in ListOf(p.filters, k) ==> item !in l && |l| < |ListOf(p.filters, k)|)
  {
  }

  /** `clearAllFilters`: the defaults and a zero count, reported to the parent. */
  function ClearAll(p: Panel): (r: Change)
    ensures r.panel == InitialPanel && r.reported == DefaultFilters
    ensures Consistent(r.panel)
    ensures forall c :: !Holds(r.panel.filters, c)
  {
    Change(Panel(DefaultFilters, 0), DefaultFilters)
  }

  /** The user's inputs on the panel. */
  datatype PanelAction = Patch(patch: FilterPatch) | CategoryClick(category: string)
                       | CheckboxClick(key: ListKey, item: string) | Clear

  function Step(p: Panel, a: PanelAction): Change {
    match a
    case Patch(patch) => UpdateFilters(p, patch)
    case CategoryClick(c) => ToggleCategory(p, c)
    case CheckboxClick(k, item) => ArrayToggle(p, ListOf(p.filters, k), item, k)
    case Clear => ClearAll(p)
  }

  function RunPanel(p: Panel, acts: seq<PanelAction>): Panel
    decreases |acts|
  {
    if acts == [] then p else RunPanel(Step(p, acts[0]).panel, acts[1..])
  }

  /** Whatever the inputs, the badge keeps showing the number of conditions that hold. */
  lemma {:induction false} BadgeAlwaysAccurate(p: Panel, acts: seq<PanelAction>)
    requires Consistent(p)
    ensures Consistent(RunPanel(p, acts))
    ensures 0 <= RunPanel(p, acts).activeCount <= 8
    decreases |acts|
  {
    if acts == [] {
      ActiveCountCountsConditions(p.filters);
    } else {
      var q := Step(p, acts[0]).panel;
      assert Consistent(q);
      BadgeAlwaysAccurate(q, acts[1..]);
    }
  }

  lemma InitialPanelConsistent()
    ensures Consistent(InitialPanel)
    ensures ClearAll(InitialPanel).panel == InitialPanel
  {
  }
}

=== FILE: basics.dfy ===
/** Small shared vocabulary: optional values and opaque calendar dates. */
module Basics {

  /** An optional value; `None` stands for JavaScript's `undefined`. */
  datatype Option<+T> = None | Some(value: T) {

    /** The held value, or `default` when there is none. */
    function GetOr(default: T): (r: T)
      ensures Some? ==> r == value
      ensures None? ==> r == default
    {
      match this
      case Some(v) => v
      case None => default
    }
  }

  /** A calendar date, kept opaque: only its presence matters to the model. */
  datatype Date = Date(dayNumber: int)
}

=== FILE: create_event.dfy ===
/** The six-step event-creation wizard: the draft record, its one-field updates, the ticket-tier
    list editor, the amenity toggle and the step controller. */
module CreateEvent {
  import opened Basics
  import Lists

  /** Which group of location fields is meaningful. */
  datatype EventKind = Physical | Online

  /** One priced ticket category; price and quantity stay raw text, as typed. */
  datatype TicketTier = TicketTier(name: string, price: string, description: string, quantity: string)

  /** The event being assembled. The select boxes store whatever string they are given, so the
      three policy settings are kept as text. */
  datatype EventDraft = EventDraft(
    title: string,
    description: string,
    category: string,
    subcategory: string,
    eventType: EventKind,
    location: string,
    address: string,
    onlineLink: string,
    date: Option<Date>,
    startTime: string,
    endTime: string,
    maxCapacity: string,
    ticketTypes: seq<TicketTier>,
    images: seq<string>,
    amenities: seq<string>,
    ageRestriction: string,
    refundPolicy: string,
    visibility: string)

  /** The keys of the draft. */
  datatype Field =
    | Title | Description | Category | Subcategory | EventType | Location | Address | OnlineLink
    | EventDate | StartTime | EndTime | MaxCapacity | TicketTypes | Images | Amenities
    | AgeRestriction | RefundPolicy | Visibility

  /** A key paired with a value of that key's type: the argument pair of `updateFormData`. */
  datatype Edit =
    | SetTitle(title: string)
    | SetDescription(description: string)
    | SetCategory(category: string)
    | SetSubcategory(subcategory: string)
    | SetEventType(kind: EventKind)
    | SetLocation(location: string)
    | SetAddress(address: string)
    | SetOnlineLink(onlineLink: string)
    | SetDate(date: Option<Date>)
    | SetStartTime(startTime: string)
    | SetEndTime(endTime: string)
    | SetMaxCapacity(maxCapacity: string)
    | SetTicketTypes(tiers: seq<TicketTier>)
    | SetImages(images: seq<string>)
    | SetAmenities(amenities: seq<string>)
    | SetAgeRestriction(ageRestriction: string)
    | SetRefundPolicy(refundPolicy: string)
    | SetVisibility(visibility: string)

  /** The key an edit writes. */
  function FieldOf(e: Edit): Field {
    match e
    case SetTitle(_) => Title
    case SetDescription(_) => Description
    case SetCategory(_) => Category
    case SetSubcategory(_) => Subcategory
    case SetEventType(_) => EventType
    case SetLocation(_) => Location
    case SetAddress(_) => Address
    case SetOnlineLink(_) => OnlineLink
    case SetDate(_) => EventDate
    case SetStartTime(_) => StartTime
    case SetEndTime(_) => EndTime
    case SetMaxCapacity(_) => MaxCapacity
    case SetTicketTypes(_) => TicketTypes
    case SetImages(_) => Images
    case SetAmenities(_) => Amenities
    case SetAgeRestriction(_) => AgeRestriction
    case SetRefundPolicy(_) => RefundPolicy
    case SetVisibility(_) => Visibility
  }

  /** The current value of key `f`, as the edit that would write it. */
  function Read(d: EventDraft, f: Field): (e: Edit)
    ensures FieldOf(e) == f
  {
    match f
    case Title => SetTitle(d.title)
    case Description => SetDescription(d.description)
    case Category => SetCategory(d.category)
    case Subcategory => SetSubcategory(d.subcategory)
    case EventType => SetEventType(d.eventType)
    case Location => SetLocation(d.location)
    case Address => SetAddress(d.address)
    case OnlineLink => SetOnlineLink(d.onlineLink)
    case EventDate => SetDate(d.date)
    case StartTime => SetStartTime(d.startTime)
    case EndTime => SetEndTime(d.endTime)
    case MaxCapacity => SetMaxCapacity(d.maxCapacity)
    case TicketTypes => SetTicketTypes(d.ticketTypes)
    case Images => SetImages(d.images)
    case Amenities => SetAmenities(d.amenities)
    case AgeRestriction => SetAgeRestriction(d.ageRestriction)
    case RefundPolicy => SetRefundPolicy(d.refundPolicy)
    case Visibility => SetVisibility(d.visibility)
  }

  /** Two drafts that agree on every key are the same draft. */
  lemma DraftExtensionality(a: EventDraft, b: EventDraft)
    requires forall f :: Read(a, f) == Read(b, f)
    ensures a == b
  {
    assert Read(a, Title) == Read(b, Title);
    assert Read(a, Description) == Read(b, Description);
    assert Read(a, Category) == Read(b, Category);
    assert Read(a, Subcategory) == Read(b, Subcategory);
    assert Read(a, EventType) == Read(b, EventType);
    assert Read(a, Location) == Read(b, Location);
    assert Read(a, Address) == Read(b, Address);
    assert Read(a, OnlineLink) == Read(b, OnlineLink);
    assert Read(a, EventDate) == Read(b, EventDate);
    assert Read(a, StartTime) == Read(b, StartTime);
    assert Read(a, EndTime) == Read(b, EndTime);
    assert Read(a, MaxCapacity) == Read(b, MaxCapacity);
    assert Read(a, TicketTypes) == Read(b, TicketTypes);
    assert Read(a, Images) == Read(b, Images);
    assert Read(a, Amenities) == Read(b, Amenities);
    assert Read(a, AgeRestriction) == Read(b, AgeRestriction);
    assert Read(a, RefundPolicy) == Read(b, RefundPolicy);
    assert Read(a, Visibility) == Read(b, Visibility);
  }

  /** `updateFormData(field, value)`: key `field` takes the new value and every other key keeps its own. */
  function UpdateFormData(d: EventDraft, e: Edit): (r: EventDraft)
    ensures Read(r, FieldOf(e)) == e
    ensures forall f :: f != FieldOf(e) ==> Read(r, f) == Read(d, f)
  {
    match e
    case SetTitle(v) => d.(title := v)
    case SetDescription(v) => d.(description := v)
    case SetCategory(v) => d.(category := v)
    case SetSubcategory(v) => d.(subcategory := v)
    case SetEventType(v) => d.(eventType := v)
    case SetLocation(v) => d.(location := v)
    case SetAddress(v) => d.(address := v)
    case SetOnlineLink(v) => d.(onlineLink := v)
    case SetDate(v) => d.(date := v)
    case SetStartTime(v) => d.(startTime := v)
    case SetEndTime(v) => d.(endTime := v)
    case SetMaxCapacity(v) => d.(maxCapacity := v)
    case SetTicketTypes(v) => d.(ticketTypes := v)
    case SetImages(v) => d.(images := v)
    case SetAmenities(v) => d.(amenities := v)
    case SetAgeRestriction(v) => d.(ageRestriction := v)
    case SetRefundPolicy(v) => d.(refundPolicy := v)
    case SetVisibility(v) => d.(visibility := v)
  }

  /** Writing a key's current value back changes nothing; writing twice keeps the second value. */
  lemma UpdateFormDataLaws(d: EventDraft, f: Field, e1: Edit, e2: Edit)
    requires FieldOf(e1) == FieldOf(e2)
    ensures UpdateFormData(d, Read(d, f)) == d
    ensures UpdateFormData(UpdateFormData(d, e1), e2) == UpdateFormData(d, e2)
  {
    DraftExtensionality(UpdateFormData(d, Read(d, f)), d);
    DraftExtensionality(UpdateFormData(UpdateFormData(d, e1), e2), UpdateFormData(d, e2));
  }

  // ---------------------------------------------------------------------------------------------
  // Ticket tiers

  /** The keys of a tier. */
  datatype TierField = TierName | TierPrice | TierDescription | TierQuantity

  /** The value of key `f` of a tier. */
  function TierRead(t: TicketTier, f: TierField): string {
    match f
    case TierName => t.name
    case TierPrice => t.price
    case TierDescription => t.description
    case TierQuantity => t.quantity
  }

  /** `{ ...ticket, [field]: value }`. */
  function TierWrite(t: TicketTier, f: TierField, v: string): (r: TicketTier)
    ensures TierRead(r, f) == v
    ensures forall g :: g != f ==> TierRead(r, g) == TierRead(t, g)
  {
    match f
    case TierName => t.(name := v)
    case TierPrice => t.(price := v)
    case TierDescription => t.(description := v)
    case TierQuantity => t.(quantity := v)
  }

  /** The tier `addTicketType` appends. */
  const BlankTier := TicketTier("", "", "", "")

  /** `addTicketType`: one blank tier appended after the existing ones. */
  function AddTier(ts: seq<TicketTier>): (r: seq<TicketTier>)
    ensures |r| == |ts| + 1
    ensures r[..|ts|] == ts
    ensures r[|ts|] == BlankTier
  {
    ts + [BlankTier]
  }

  /** `updateTicketType(index, field, value)`: only key `f` of tier `i` changes; an index outside the
      list matches no tier. */
  function UpdateTier(ts: seq<TicketTier>, i: int, f: TierField, v: string): (r: seq<TicketTier>)
    ensures |r| == |ts|
    ensures forall j :: 0 <= j < |ts| && j != i ==> r[j] == ts[j]
    ensures 0 <= i < |ts| ==> TierRead(r[i], f) == v
    ensures 0 <= i < |ts| ==> forall g :: g != f ==> TierRead(r[i], g) == TierRead(ts[i], g)
    ensures !(0 <= i < |ts|) ==> r == ts
  {
    seq(|ts|, j requires 0 <= j < |ts| => if j == i then TierWrite(ts[j], f, v) else ts[j])
  }

  /** `removeTicketType(index)`: refused while only one tier is left; otherwise the tier at `i` goes
      (if there is one) and the rest keep their order. */
  function RemoveTier(ts: seq<TicketTier>, i: int): (r: seq<TicketTier>)
    ensures |ts| <= 1 ==> r == ts
    ensures |ts| > 1 && 0 <= i < |ts| ==> r == ts[..i] + ts[i + 1..]
    ensures !(0 <= i < |ts|) ==> r == ts
    ensures |ts| >= 1 ==> |r| >= 1
  {
    if |ts| > 1 then Lists.RemoveAt(ts, i) else ts
  }

  /** Removing the tier just added restores the list; adding then removing never empties it. */
  lemma AddThenRemoveLast(ts: seq<TicketTier>)
    requires |ts| >= 1
    ensures RemoveTier(AddTier(ts), |ts|) == ts
  {
  }

  /** Editing a tier's key to its current value changes nothing. */
  lemma UpdateTierSameValue(ts: seq<TicketTier>, i: int, f: TierField)
    requires 0 <= i < |ts|
    ensures UpdateTier(ts, i, f, TierRead(ts[i], f)) == ts
  {
    var r := UpdateTier(ts, i, f, TierRead(ts[i], f));
    var t, u := r[i], ts[i];
    assert TierRead(t, TierName) == TierRead(u, TierName);
    assert TierRead(t, TierPrice) == TierRead(u, TierPrice);
    assert TierRead(t, TierDescription) == TierRead(u, TierDescription);
    assert TierRead(t, TierQuantity) == TierRead(u, TierQuantity);
  }

  /** The actions of the tier editor. */
  datatype TierAction = AddTicket | UpdateTicket(index: int, field: TierField, value: string) | RemoveTicket(index: int)

  function ApplyTierAction(ts: seq<TicketTier>, a: TierAction): seq<TicketTier> {
    match a
    case AddTicket => AddTier(ts)
    case UpdateTicket(i, f, v) => UpdateTier(ts, i, f, v)
    case RemoveTicket(i) => RemoveTier(ts, i)
  }

  function ApplyTierActions(ts: seq<TicketTier>, acts: seq<TierAction>): seq<TicketTier>
    decreases |acts|
  {
    if acts == [] then ts else ApplyTierActions(ApplyTierAction(ts, acts[0]), acts[1..])
  }

  /** The list never drops below one tier, whatever the editor is asked to do. */
  lemma {:induction false} TierListNeverEmpty(ts: seq<TicketTier>, acts: seq<TierAction>)
    requires |ts| >= 1
    ensures |ApplyTierActions(ts, acts)| >= 1
    decreases |acts|
  {
    if acts != [] {
      TierListNeverEmpty(ApplyTierAction(ts, acts[0]), acts[1..]);
    }
  }

  /** Adding two tiers to the single default one, naming the last "VIP", and then removing index 0
      twice leaves exactly that named tier: removal shifts the later tiers to the front. */
  lemma AddTwiceRemoveFrontTwice()
    ensures ApplyTierActions(InitialDraft.ticketTypes,
              [AddTicket, AddTicket, UpdateTicket(2, TierName, "VIP"), RemoveTicket(0), RemoveTicket(0)])
            == [BlankTier.(name := "VIP")]
  {
    var vip := BlankTier.(name := "VIP");
    var t0 := InitialDraft.ticketTypes;
    var t1 := AddTier(t0);
    var t2 := AddTier(t1);
    var t3 := UpdateTier(t2, 2, TierName, "VIP");
    assert t3 == [t0[0], BlankTier, vip];
    var t4 := RemoveTier(t3, 0);
    assert t4 == [BlankTier, vip];
    var t5 := RemoveTier(t4, 0);
    assert t5 == [vip];
    var acts := [AddTicket, AddTicket, UpdateTicket(2, TierName, "VIP"), RemoveTicket(0), RemoveTicket(0)];
    assert ApplyTierActions(t0, acts) == ApplyTierActions(t1, acts[1..]);
    assert acts[1..][1..] == acts[2..];
    assert acts[2..][1..] == acts[3..];
    assert acts[3..][1..] == acts[4..];
    assert acts[4..][1..] == [];
  }

  // ---------------------------------------------------------------------------------------------
  // Amenities

  /** `handleAmenityToggle(amenity)` on the draft: only the amenity list changes. */
  function ToggleAmenity(d: EventDraft, a: string): (r: EventDraft)
    ensures r == d.(amenities := r.amenities)
    ensures a in r.amenities <==> a !in d.amenities
    ensures forall b :: b != a ==> (b in r.amenities <==> b in d.amenities)
    ensures a !in d.amenities ==> r.amenities == d.amenities + [a]
    ensures a in d.amenities ==> Lists.IsSubsequence(r.amenities, d.amenities)
    ensures a in d.amenities ==>
      forall b :: multiset(r.amenities)[b] == if b == a then 0 else multiset(d.amenities)[b]
    ensures Lists.NoDuplicates(d.amenities) ==> Lists.NoDuplicates(r.amenities)
  {
    Lists.ToggleKeepsNoDuplicates(d.amenities, a);
    d.(amenities := Lists.Toggle(d.amenities, a))
  }

  /** Ticking an unticked amenity and unticking it again restores the draft exactly. */
  lemma ToggleAmenityTwice(d: EventDraft, a: string)
    requires a !in d.amenities
    ensures ToggleAmenity(ToggleAmenity(d, a), a) == d
  {
    Lists.ToggleTwiceAbsent(d.amenities, a);
  }

  // ---------------------------------------------------------------------------------------------
  // Step controller

  const TotalSteps := 6

  /** `nextStep`: one step forward unless already on the last. */
  function NextStep(step: int): (r: int)
    ensures 1 <= step <= TotalSteps ==> 1 <= r <= TotalSteps
    ensures step == TotalSteps ==> r == step
    ensures 1 <= step < TotalSteps ==> r == step + 1
  {
    if step < TotalSteps then step + 1 else step
  }

  /** `prevStep`: one step back unless already on the first. */
  function PrevStep(step: int): (r: int)
    ensures 1 <= step <= TotalSteps ==> 1 <= r <= TotalSteps
    ensures step == 1 ==> r == step
    ensures 1 < step <= TotalSteps ==> r == step - 1
  {
    if step > 1 then step - 1 else step
  }

  /** Going forward then back returns to any step but the last; back then forward to any but the first. */
  lemma NextPrevInverse(step: int)
    requires 1 <= step <= TotalSteps
    ensures step < TotalSteps ==> PrevStep(NextStep(step)) == step
    ensures step > 1 ==> NextStep(PrevStep(step)) == step
  {
  }

  /** The card title of a step. */
  function StepTitle(step: int): (r: string)
    ensures r != "Crea Evento" <==> 1 <= step <= TotalSteps
  {
    match step
    case 1 => "Informazioni Generali"
    case 2 => "Location e Logistica"
    case 3 => "Data e Orari"
    case 4 => "Biglietteria e Prezzi"
    case 5 => "Contenuti Multimediali"
    case 6 => "Impostazioni Finali"
    case _ => "Crea Evento"
  }

  /** The six steps have six different titles, none of them the fallback. */
  lemma StepTitlesDistinct(i: int, j: int)
    ensures 1 <= i <= TotalSteps && 1 <= j <= TotalSteps && i != j ==> StepTitle(i) != StepTitle(j)
    ensures 1 <= i <= TotalSteps ==> StepTitle(i) != "Crea Evento"
    ensures !(1 <= i <= TotalSteps) ==> StepTitle(i) == "Crea Evento"
  {
  }

  /** How the sidebar shows a step relative to the current one. */
  datatype StepStatus = Current | Completed | Upcoming

  function SidebarStatus(step: int, current: int): (s: StepStatus)
    ensures s == Current <==> step == current
    ensures s == Completed <==> step < current
    ensures s == Upcoming <==> step > current
  {
    if step == current then Current else if step < current then Completed else Upcoming
  }

  /** "Indietro" is offered from step 2 on. */
  function ShowsBack(current: int): (r: bool)
    ensures r <==> PrevStep(current) != current
  {
    current > 1
  }

  /** "Continua" is offered before the last step, "Pubblica Evento" otherwise. */
  function ShowsContinue(current: int): (r: bool)
    ensures r <==> NextStep(current) != current
  {
    current < TotalSteps
  }

  /** On a step in range, Publish is shown exactly on step 6, Back exactly off step 1, and exactly
      one of Continue and Publish is shown. */
  lemma ButtonVisibility(current: int)
    requires 1 <= current <= TotalSteps
    ensures !ShowsContinue(current) <==> current == 6
    ensures ShowsBack(current) <==> current != 1
  {
  }

  // ---------------------------------------------------------------------------------------------
  // The wizard as a whole

  /** The draft the wizard opens with. */
  const InitialDraft := EventDraft(
    "", "", "", "", Physical, "", "", "", None, "", "", "",
    [TicketTier("Standard", "", "", "")], [], [], "none", "flexible", "public")

  datatype Wizard = Wizard(step: int, draft: EventDraft)

  const InitialWizard := Wizard(1, InitialDraft)

  /** What holds of the wizard at every moment. */
  predicate Valid(w: Wizard) {
    && 1 <= w.step <= TotalSteps
    && |w.draft.ticketTypes| >= 1
    && Lists.NoDuplicates(w.draft.amenities)
  }

  /** The user's inputs. Plain field edits never touch the tier, image or amenity lists. */
  datatype Action =
    | EditField(edit: Edit)
    | Tier(tier: TierAction)
    | ToggleAmenityAction(amenity: string)
    | Next
    | Prev
    | GoTo(step: int)
    | SaveDraft
    | Publish

  /** The inputs the model admits: the sidebar lists steps 1 to 6, and the form's inputs call
      `updateFormData` only for scalar keys. "Continua" and "Pubblica Evento" are admitted at every
      step, more than the page renders (one of the two, by step), so the invariants cover a superset. */
  predicate Offered(a: Action) {
    match a
    case EditField(e) => FieldOf(e) !in {TicketTypes, Images, Amenities}
    case GoTo(s) => 1 <= s <= TotalSteps
    case _ => true
  }

  /** One input handled. Save and Publish only notify and navigate; the state is kept. */
  function Apply(w: Wizard, a: Action): (r: Wizard)
    requires Offered(a)
    ensures Valid(w) ==> Valid(r)
    ensures a.EditField? || a.Tier? || a.ToggleAmenityAction? ==> r.step == w.step
    ensures a.Next? || a.Prev? || a.GoTo? || a.SaveDraft? || a.Publish? ==> r.draft == w.draft
  {
    match a
    case EditField(e) => Wizard(w.step, UpdateFormData(w.draft, e))
    case Tier(t) => Wizard(w.step, w.draft.(ticketTypes := ApplyTierAction(w.draft.ticketTypes, t)))
    case ToggleAmenityAction(x) => Wizard(w.step, ToggleAmenity(w.draft, x))
    case Next => w.(step := NextStep(w.step))
    case Prev => w.(step := PrevStep(w.step))
    case GoTo(s) => w.(step := s)
    case SaveDraft => w
    case Publish => w
  }

  /** Where the wizard sends the user: only a publish leaves, for the host dashboard. */
  function Destination(a: Action): (r: Option<string>)
    ensures r.Some? <==> a.Publish?
  {
    if a.Publish? then Some("/host/dashboard") else None
  }

  predicate AllOffered(acts: seq<Action>) {
    forall k :: 0 <= k < |acts| ==> Offered(acts[k])
  }

  function Run(w: Wizard, acts: seq<Action>): Wizard
    requires AllOffered(acts)
    decreases |acts|
  {
    if acts == [] then w else Run(Apply(w, acts[0]), acts[1..])
  }

  /** From the opening state, any sequence of inputs keeps the step in 1..6, at least one tier and a
      duplicate-free amenity list. */
  lemma {:induction false} RunKeepsValid(w: Wizard, acts: seq<Action>)
    requires Valid(w) && AllOffered(acts)
    ensures Valid(Run(w, acts))
    decreases |acts|
  {
    if acts != [] {
      RunKeepsValid(Apply(w, acts[0]), acts[1..]);
    }
  }

  lemma InitialWizardValid()
    ensures Valid(InitialWizard)
    ensures InitialWizard.step == 1 && |InitialWizard.draft.ticketTypes| == 1
  {
  }

  /** The sidebar reaches the last step from the opening state in one click: no step is gated. */
  lemma JumpToLastUngated()
    ensures Run(InitialWizard, [GoTo(6)]).step == 6
    ensures !ShowsContinue(Run(InitialWizard, [GoTo(6)]).step)
  {
    assert [GoTo(6)][1..] == [];
  }
}

=== FILE: event_detail.dfy ===
/** The event page: image gallery, ticket choice and the review list. */
module EventDetail {
  import opened Basics
  import Text

  /** A ticket tier as the page lists it. */
  datatype TicketOffer = TicketOffer(
    name: string, price: string, originalPrice: string, description: string,
    available: int, total: int)

  /** A published review. */
  datatype Review = Review(id: int, user: string, rating: int, date: string, comment: string)

  /** What the page's state logic reads of the event. */
  datatype DetailEvent = DetailEvent(images: seq<string>, tickets: seq<TicketOffer>, reviews: seq<Review>)

  const MockTickets := [
    TicketOffer("Early Bird", "€35", "€45", "Accesso standard, 1 drink incluso", 0, 500),
    TicketOffer("Standard", "€45", "€60", "Accesso completo all'evento", 847, 2000),
    TicketOffer("VIP Experience", "€120", "€150", "Area VIP, meet & greet, buffet, parcheggio riservato", 23, 100)]

  const MockReviews := [
    Review(1, "Marco R.", 5, "2 giorni fa",
      "Evento fantastico! Organizzazione perfetta e artisti incredibili. Lo consiglio vivamente!"),
    Review(2, "Sara M.", 4, "1 settimana fa",
      "Bella esperienza, ottima location. Unico neo: code lunghe ai bar."),
    Review(3, "Luca T.", 5, "2 settimane fa",
      "Il miglior festival a cui abbia mai partecipato. Già prenotato per il prossimo anno!")]

  const MockEvent := DetailEvent(
    ["event-concert.jpg", "event-workshop.jpg", "event-outdoor.jpg"], MockTickets, MockReviews)

  /** The page's three pieces of state. */
  datatype DetailState = DetailState(selectedImage: int, selectedTicket: int, showAllReviews: bool)

  /** The first image, the second tier, reviews collapsed. */
  const InitialState := DetailState(0, 1, false)

  /** The selected tier exists and is not sold out. */
  predicate SelectionAvailable(tickets: seq<TicketOffer>, s: DetailState) {
    0 <= s.selectedTicket < |tickets| && tickets[s.selectedTicket].available > 0
  }

  /** Every index the page holds points into its list. */
  predicate Valid(ev: DetailEvent, s: DetailState) {
    0 <= s.selectedImage < |ev.images| && SelectionAvailable(ev.tickets, s)
  }

  /** Clicking a thumbnail shows that image; the thumbnails are the event's images. */
  function SelectImage(ev: DetailEvent, s: DetailState, index: nat): (r: DetailState)
    requires index < |ev.images|
    ensures r.selectedImage == index
    ensures r.selectedTicket == s.selectedTicket && r.showAllReviews == s.showAllReviews
  {
    s.(selectedImage := index)
  }

  /** Clicking a tier box: only a tier with tickets left becomes the selection. */
  function ClickTicket(tickets: seq<TicketOffer>, s: DetailState, index: nat): (r: DetailState)
    requires index < |tickets|
    ensures r.selectedTicket == index <==> tickets[index].available > 0 || s.selectedTicket == index
    ensures r.selectedTicket != index ==> r == s
    ensures r.selectedImage == s.selectedImage && r.showAllReviews == s.showAllReviews
  {
    if tickets[index].available > 0 then s.(selectedTicket := index) else s
  }

  /** A click never moves the selection onto a sold-out tier. */
  lemma ClickKeepsSelectionAvailable(tickets: seq<TicketOffer>, s: DetailState, index: nat)
    requires index < |tickets| && SelectionAvailable(tickets, s)
    ensures SelectionAvailable(tickets, ClickTicket(tickets, s, index))
  {
  }

  /** A click on a sold-out tier changes nothing. */
  lemma SoldOutClickIgnored(tickets: seq<TicketOffer>, s: DetailState, index: nat)
    requires index < |tickets| && tickets[index].available <= 0
    ensures ClickTicket(tickets, s, index) == s
  {
  }

  function Min(a: int, b: int): (m: int)
    ensures m <= a && m <= b && (m == a || m == b)
  {
    if a <= b then a else b
  }

  /** `reviews.slice(0, showAllReviews ? undefined : 3)`. */
  function ShownReviews(reviews: seq<Review>, expanded: bool): (r: seq<Review>)
    ensures |r| <= |reviews| && r == reviews[..|r|]
    ensures expanded ==> r == reviews
    ensures !expanded ==> |r| == Min(3, |reviews|)
  {
    if expanded then reviews else reviews[..Min(3, |reviews|)]
  }

  /** The "show all" button: offered while collapsed and more than three reviews exist. */
  function ShowsAllButton(reviews: seq<Review>, expanded: bool): (r: bool)
    ensures r ==> |reviews| > 3 && ShownReviews(reviews, expanded) == reviews[..3]
    ensures !r ==> ShownReviews(reviews, expanded) == reviews
  {
    !expanded && |reviews| > 3
  }

  /** The button is on screen exactly when some review is hidden. */
  lemma ButtonIffHiddenReviews(reviews: seq<Review>, expanded: bool)
    ensures ShowsAllButton(reviews, expanded) <==> |ShownReviews(reviews, expanded)| < |reviews|
  {
  }

  /** Collapsing only hides the tail: what is shown collapsed is a prefix of what is shown expanded. */
  lemma CollapsedIsPrefix(reviews: seq<Review>)
    ensures ShownReviews(reviews, false) <= ShownReviews(reviews, true)
  {
  }

  /** What the user can do on the page. */
  datatype DetailAction = Thumbnail(image: nat) | TicketClick(ticket: nat) | ShowAllReviews

  /** Thumbnails and tier boxes exist only for the event's own images and tiers. */
  predicate Offered(ev: DetailEvent, a: DetailAction) {
    match a
    case Thumbnail(i) => i < |ev.images|
    case TicketClick(i) => i < |ev.tickets|
    case ShowAllReviews => true
  }

  function Apply(ev: DetailEvent, s: DetailState, a: DetailAction): (r: DetailState)
    requires Offered(ev, a)
    ensures Valid(ev, s) ==> Valid(ev, r)
    ensures s.showAllReviews ==> r.showAllReviews
  {
    match a
    case Thumbnail(i) => SelectImage(ev, s, i)
    case TicketClick(i) => ClickTicket(ev.tickets, s, i)
    case ShowAllReviews => s.(showAllReviews := true)
  }

  function Run(ev: DetailEvent, s: DetailState, acts: seq<DetailAction>): DetailState
    requires forall i :: 0 <= i < |acts| ==> Offered(ev, acts[i])
    decreases |acts|
  {
    if acts == [] then s else Run(ev, Apply(ev, s, acts[0]), acts[1..])
  }

  /** Whatever the user does, the page's indices stay meaningful, the chosen tier is never sold
      out, and once expanded the reviews stay expanded. */
  lemma {:induction false} RunKeepsValid(ev: DetailEvent, s: DetailState, acts: seq<DetailAction>)
    requires forall i :: 0 <= i < |acts| ==> Offered(ev, acts[i])
    requires Valid(ev, s)
    ensures Valid(ev, Run(ev, s, acts))
    ensures s.showAllReviews ==> Run(ev, s, acts).showAllReviews
    decreases |acts|
  {
    if acts != [] {
      RunKeepsValid(ev, Apply(ev, s, acts[0]), acts[1..]);
    }
  }

  /** The page opens in a valid state on its own event, with the "Standard" tier chosen. */
  lemma InitialStateValid()
    ensures Valid(MockEvent, InitialState)
    ensures MockEvent.tickets[InitialState.selectedTicket].name == "Standard"
  {
  }

  /** With three reviews the "show all" button never appears, whatever the state. */
  lemma MockReviewsNeedNoButton(expanded: bool)
    ensures !ShowsAllButton(MockEvent.reviews, expanded)
    ensures ShownReviews(MockEvent.reviews, expanded) == MockEvent.reviews
  {
  }

  /** A number as a template literal writes it, with a minus sign when negative. */
  function IntToString(n: int): (r: string)
    ensures n >= 0 ==> r == Text.NatToString(n)
    ensures n < 0 ==> |r| > 1 && r[0] == '-' && r[1..] == Text.NatToString(-n)
  {
    if n >= 0 then Text.NatToString(n) else "-" + Text.NatToString(-n)
  }

  /** What one tier box shows. */
  datatype TicketLines = TicketLines(
    name: string, price: string, struck: Option<string>, description: string,
    availability: string, counts: string, highlighted: bool, dimmed: bool)

  /** The tier box: the struck-through original price only when it differs, the green stock line
      only while tickets are left, and the dimmed look only at exactly zero. */
  function TicketBox(t: TicketOffer, selected: bool): (r: TicketLines)
    ensures r.name == t.name && r.price == t.price && r.description == t.description
    ensures r.counts == IntToString(t.available) + "/" + IntToString(t.total)
    ensures r.struck.Some? <==> t.originalPrice != t.price
    ensures r.struck.Some? ==> r.struck.value == t.originalPrice
    ensures r.availability == "Esaurito" <==> t.available <= 0
    ensures t.available > 0 ==> |r.availability| > 12 && r.availability[|r.availability| - 12..] == " disponibili"
    ensures t.available > 0 ==> forall i :: 0 <= i < |r.availability| - 12 ==> '0' <= r.availability[i] <= '9'
    ensures t.available > 0 ==> Text.ParseDigits(r.availability[..|r.availability| - 12]) == t.available
    ensures t.available > 0 ==> r.availability[0] != '0'
    ensures r.dimmed <==> t.available == 0
    ensures r.highlighted == selected
  {
    var availability := if t.available > 0 then Text.NatToString(t.available) + " disponibili" else "Esaurito";
    assert t.available > 0 ==>
      availability != "Esaurito" &&
      Text.ParseDigits(availability[..|availability| - 12]) == t.available by {
      if t.available > 0 {
        Text.NatToStringRoundTrip(t.available);
        assert availability[..|availability| - 12] == Text.NatToString(t.available);
        assert availability[0] != 'E';
      }
    }
    TicketLines(
      t.name, t.price, if t.originalPrice != t.price then Some(t.originalPrice) else None,
      t.description, availability, IntToString(t.available) + "/" + IntToString(t.total),
      selected, t.available == 0)
  }

  /** On the page's own event the sold-out "Early Bird" tier is never the selection. */
  lemma EarlyBirdNeverSelected(acts: seq<DetailAction>)
    requires forall i :: 0 <= i < |acts| ==> Offered(MockEvent, acts[i])
    ensures Run(MockEvent, InitialState, acts).selectedTicket != 0
  {
    InitialStateValid();
    RunKeepsValid(MockEvent, InitialState, acts);
  }
}

=== FILE: event_index.dfy ===
/** The home page's event list and its category buttons. */
module EventIndex {
  import Lists
  import Text

  /** The fields of a listed event that the page's logic looks at. */
  datatype EventSummary = EventSummary(id: string, title: string, category: string, location: string, price: string)

  const MockEvents := [
    EventSummary("1", "Live Music Festival 2024", "Musica", "Stadio San Siro, Milano", "€45"),
    EventSummary("2", "Workshop Leadership & Innovation", "Business", "Centro Congressi Roma", "€120"),
    EventSummary("3", "Avventura in Montagna", "Sport", "Dolomiti, Trentino", "€80"),
    EventSummary("4", "Masterclass Fotografia Digitale", "Fotografia", "Online - Zoom", "€35"),
    EventSummary("5", "Jazz Night al Tramonto", "Musica", "Blue Note Milano", "€25"),
    EventSummary("6", "Corso di Cucina Italiana", "Food & Drink", "Scuola di Cucina Roma", "€65")]

  /** A category button: the id it selects and the name it shows. */
  datatype CategoryButton = CategoryButton(id: string, name: string)

  const CategoryButtons := [
    CategoryButton("all", "Tutti"),
    CategoryButton("music", "Musica"),
    CategoryButton("business", "Business"),
    CategoryButton("sports", "Sport"),
    CategoryButton("photo", "Fotografia"),
    CategoryButton("art", "Arte"),
    CategoryButton("food", "Food & Drink"),
    CategoryButton("social", "Social"),
    CategoryButton("education", "Educazione")]

  /** The page's test: the lowercased category contains the selected id. */
  predicate MatchesId(e: EventSummary, selected: string) {
    Text.Contains(Text.Lower(e.category), selected)
  }

  /** `filteredEvents`: everything for "all", otherwise the events whose lowercased category contains
      the selected id, in their original order. */
  function FilteredEvents(events: seq<EventSummary>, selected: string): (r: seq<EventSummary>)
    ensures selected == "all" ==> r == events
    ensures selected != "all" ==> forall e :: e in r <==> e in events && MatchesId(e, selected)
    ensures selected != "all" ==>
      forall e :: multiset(r)[e] == if MatchesId(e, selected) then multiset(events)[e] else 0
    ensures Lists.IsSubsequence(r, events)
    ensures |r| <= |events|
  {
    if selected == "all" then
      Lists.SubsequenceReflexive(events);
      events
    else Lists.Filter(events, e => MatchesId(e, selected))
  }

  /** The categories of the mock list, position by position. */
  predicate MockLayout(xs: seq<EventSummary>) {
    |xs| == 6 &&
    xs[0].category == "Musica" && xs[1].category == "Business" && xs[2].category == "Sport" &&
    xs[3].category == "Fotografia" && xs[4].category == "Musica" && xs[5].category == "Food & Drink"
  }

  /** A category lacking, in both cases, some lowercase letter of the selected id is never matched. */
  lemma LacksLetter(e: EventSummary, selected: string, j: nat)
    requires j < |selected| && 'a' <= selected[j] <= 'z'
    requires selected[j] !in e.category && (selected[j] as int - 32) as char !in e.category
    ensures !MatchesId(e, selected)
  {
    var low := Text.Lower(e.category);
    forall i | 0 <= i < |low| ensures low[i] != selected[j] {
      assert e.category[i] in e.category;
    }
    NotContained(low, selected, j);
  }

  /** "Musica" lowercases to a word that starts with "music". */
  lemma MusicaMatches(e: EventSummary)
    requires e.category == "Musica"
    ensures MatchesId(e, "music")
  {
    var low := Text.Lower(e.category);
    assert low[..5] == "music";
    assert Text.OccursAt(low, "music", 0);
  }

  /** The "music" button over any list laid out like the mock list's categories keeps the two
      "Musica" entries, in order. */
  lemma MusicSelectsMusica(xs: seq<EventSummary>)
    requires MockLayout(xs)
    ensures FilteredEvents(xs, "music") == [xs[0], xs[4]]
  {
    var p := e => MatchesId(e, "music");
    OtherCategoriesLackM(xs);
    MusicaMatches(xs[0]);
    MusicaMatches(xs[4]);
    LacksLetter(xs[1], "music", 0);
    LacksLetter(xs[2], "music", 0);
    LacksLetter(xs[3], "music", 0);
    LacksLetter(xs[5], "music", 0);
    KeepFirstAndFifth(xs, p);
  }

  /** The four other mock categories have no letter m. */
  lemma OtherCategoriesLackM(xs: seq<EventSummary>)
    requires MockLayout(xs)
    ensures forall k :: k in {1, 2, 3, 5} ==> 'm' !in xs[k].category && 'M' !in xs[k].category
  {
  }

  /** Filtering six entries of which exactly the first and fifth pass. */
  lemma KeepFirstAndFifth(xs: seq<EventSummary>, p: EventSummary -> bool)
    requires |xs| == 6
    requires p(xs[0]) && p(xs[4])
    requires !p(xs[1]) && !p(xs[2]) && !p(xs[3]) && !p(xs[5])
    ensures Lists.Filter(xs, p) == [xs[0], xs[4]]
  {
    assert xs[6..] == [];
    FilterStep(xs, p, 5);
    FilterStep(xs, p, 4);
    FilterStep(xs, p, 3);
    FilterStep(xs, p, 2);
    FilterStep(xs, p, 1);
    FilterStep(xs, p, 0);
    assert xs[0..] == xs;
  }

  /** The "music" button lists the two concerts of the mock list, in page order. */
  lemma MusicSelectsBothConcerts()
    ensures FilteredEvents(MockEvents, "music") == [MockEvents[0], MockEvents[4]]
  {
    MusicSelectsMusica(MockEvents);
  }

  /** On the page's own list the "photo" button, labelled "Fotografia", shows nothing. */
  lemma MockPhotoButtonFindsNothing()
    ensures CategoryButton("photo", MockEvents[3].category) in CategoryButtons
    ensures FilteredEvents(MockEvents, "photo") == []
  {
    PhotoButtonFindsNothing(MockEvents);
  }

  /** A needle with a character missing from the haystack does not occur in it. */
  lemma NotContained(hay: string, needle: string, j: nat)
    requires j < |needle| && needle[j] !in hay
    ensures !Text.Contains(hay, needle)
  {
    forall i | 0 <= i && i + |needle| <= |hay| ensures !Text.OccursAt(hay, needle, i) {
      assert hay[i..i + |needle|][j] == hay[i + j];
    }
  }

  /** One element of a filtered suffix. */
  lemma FilterStep(xs: seq<EventSummary>, p: EventSummary -> bool, k: nat)
    requires k < |xs|
    ensures p(xs[k]) ==> Lists.Filter(xs[k..], p) == [xs[k]] + Lists.Filter(xs[k + 1..], p)
    ensures !p(xs[k]) ==> Lists.Filter(xs[k..], p) == Lists.Filter(xs[k + 1..], p)
  {
    assert xs[k..][0] == xs[k];
    assert xs[k..][1..] == xs[k + 1..];
  }

  /** No mock category holds the letter h in either case. */
  lemma NoCategoryHasH(xs: seq<EventSummary>)
    requires MockLayout(xs)
    ensures 'h' !in xs[0].category && 'H' !in xs[0].category
    ensures 'h' !in xs[1].category && 'H' !in xs[1].category
    ensures 'h' !in xs[2].category && 'H' !in xs[2].category
    ensures 'h' !in xs[3].category && 'H' !in xs[3].category
    ensures 'h' !in xs[4].category && 'H' !in xs[4].category
    ensures 'h' !in xs[5].category && 'H' !in xs[5].category
  {
  }

  /** As written, the "photo" button shows nothing on any list laid out like the mock list,
      although that list holds a "Fotografia" event and the button carries exactly that name. */
  lemma PhotoButtonFindsNothing(xs: seq<EventSummary>)
    requires MockLayout(xs)
    ensures CategoryButton("photo", xs[3].category) in CategoryButtons
    ensures FilteredEvents(xs, "photo") == []
  {
    assert CategoryButtons[4] == CategoryButton("photo", xs[3].category);
    NoCategoryHasH(xs);
    LacksLetter(xs[0], "photo", 1);
    LacksLetter(xs[1], "photo", 1);
    LacksLetter(xs[2], "photo", 1);
    LacksLetter(xs[3], "photo", 1);
    LacksLetter(xs[4], "photo", 1);
    LacksLetter(xs[5], "photo", 1);
    KeepNoneOfSix(xs, (e: EventSummary) => MatchesId(e, "photo"));
  }

  /** A filter that nothing passes is empty. */
  lemma FilterNone(xs: seq<EventSummary>, p: EventSummary -> bool)
    requires forall e :: e in xs ==> !p(e)
    ensures Lists.Filter(xs, p) == []
  {
  }

  /** Filtering six entries of which none passes. */
  lemma KeepNoneOfSix(xs: seq<EventSummary>, p: EventSummary -> bool)
    requires |xs| == 6
    requires !p(xs[0]) && !p(xs[1]) && !p(xs[2]) && !p(xs[3]) && !p(xs[4]) && !p(xs[5])
    ensures Lists.Filter(xs, p) == []
  {
    assert xs[6..] == [];
    FilterStep(xs, p, 5);
    FilterStep(xs, p, 4);
    FilterStep(xs, p, 3);
    FilterStep(xs, p, 2);
    FilterStep(xs, p, 1);
    FilterStep(xs, p, 0);
    assert xs[0..] == xs;
  }

  /** As written, the "sports" button does not accept the "Sport" event: the id is longer than the
      lowercased name. */
  lemma SportsButtonMissesSport()
    ensures CategoryButton("sports", MockEvents[2].category) in CategoryButtons
    ensures MockEvents[2] !in FilteredEvents(MockEvents, "sports")
  {
    assert CategoryButtons[3] == CategoryButton("sports", MockEvents[2].category);
    assert |Text.Lower(MockEvents[2].category)| < |"sports"|;
  }

  /** The evidently intended filter: everything for "all", otherwise the events whose category is
      exactly the name of the selected button. */
  function FilteredEventsByName(events: seq<EventSummary>, selected: string): (r: seq<EventSummary>)
    ensures selected == "all" ==> r == events
    ensures selected != "all" ==>
      forall e :: e in r <==> e in events && CategoryButton(selected, e.category) in CategoryButtons
    ensures selected != "all" ==>
      forall e :: multiset(r)[e] ==
        if CategoryButton(selected, e.category) in CategoryButtons then multiset(events)[e] else 0
    ensures Lists.IsSubsequence(r, events)
  {
    if selected == "all" then
      Lists.SubsequenceReflexive(events);
      events
    else
      var p := (e: EventSummary) => CategoryButton(selected, e.category) in CategoryButtons;
      Lists.Filter(events, p)
  }

  /** With the corrected filter the "photo" button shows the photography masterclass. */
  lemma PhotoButtonFindsFotografia()
    ensures FilteredEventsByName(MockEvents, "photo") == [MockEvents[3]]
  {
    var xs := MockEvents;
    var p := (e: EventSummary) => CategoryButton("photo", e.category) in CategoryButtons;
    PhotoVerdicts(xs);
    KeepOnlyIndex(xs, p, 3);
  }

  /** Which mock events the corrected "photo" test accepts. */
  lemma PhotoVerdicts(xs: seq<EventSummary>)
    requires xs == MockEvents
    ensures forall i :: 0 <= i < |xs| ==>
      (CategoryButton("photo", xs[i].category) in CategoryButtons <==> i == 3)
  {
    forall i | 0 <= i < |xs|
      ensures CategoryButton("photo", xs[i].category) in CategoryButtons <==> i == 3
    {
      if CategoryButton("photo", xs[i].category) in CategoryButtons {
        var k :| 0 <= k < |CategoryButtons| && CategoryButtons[k] == CategoryButton("photo", xs[i].category);
      }
      if i == 3 {
        assert CategoryButtons[4] == CategoryButton("photo", xs[i].category);
      }
    }
  }

  /** Filtering a list in which exactly the element at `k` passes. */
  lemma {:induction false} KeepOnlyIndex(xs: seq<EventSummary>, p: EventSummary -> bool, k: nat)
    requires k < |xs|
    requires forall i :: 0 <= i < |xs| ==> (p(xs[i]) <==> i == k)
    ensures Lists.Filter(xs, p) == [xs[k]]
  {
    if k == 0 {
      forall e | e in xs[1..] ensures !p(e) {
        var j :| 0 <= j < |xs[1..]| && xs[1..][j] == e;
        assert xs[j + 1] == e;
      }
      FilterNone(xs[1..], p);
    } else {
      assert !p(xs[0]);
      KeepOnlyIndex(xs[1..], p, k - 1);
    }
  }
}

=== FILE: event_preview.dfy ===
/** The read-only preview of a draft: every text it shows is the draft's field or a fixed
    placeholder standing in for an empty one. */
module EventPreview {
  import opened Basics
  import Text
  import CreateEvent

  type Draft = CreateEvent.EventDraft
  type Tier = CreateEvent.TicketTier

  const NoPrice := "Prezzo da definire"
  const NoCapacity := "Capienza da definire"

  /** `getMainTicketPrice`: the first tier's price behind a euro sign, or the placeholder. */
  function MainTicketPrice(d: Draft): (r: string)
    ensures r == NoPrice <==> d.ticketTypes == [] || d.ticketTypes[0].price == ""
    ensures r != NoPrice ==> |r| > 1 && r[..1] == "€" && r[1..] == d.ticketTypes[0].price
  {
    if |d.ticketTypes| > 0 && d.ticketTypes[0].price != "" then
      var r := "€" + d.ticketTypes[0].price;
      assert r[0] != NoPrice[0];
      r
    else NoPrice
  }

  /** Only the first tier is looked at: tiers after it never change the headline price. */
  lemma MainPriceReadsFirstTierOnly(d: Draft, rest: seq<Tier>)
    requires |d.ticketTypes| > 0
    ensures MainTicketPrice(d.(ticketTypes := [d.ticketTypes[0]] + rest)) == MainTicketPrice(d)
  {
  }

  /** `getTotalCapacity`: the capacity followed by " posti", or the placeholder. */
  function TotalCapacity(d: Draft): (r: string)
    ensures r == NoCapacity <==> d.maxCapacity == ""
    ensures r != NoCapacity
        ==> |r| > |d.maxCapacity| && r[..|d.maxCapacity|] == d.maxCapacity && r[|d.maxCapacity|..] == " posti"
  {
    if d.maxCapacity != "" then
      var r := d.maxCapacity + " posti";
      assert r[|r| - 1] != NoCapacity[|NoCapacity| - 1];
      r
    else NoCapacity
  }

  /** `formatTime`: the time text exactly as typed. */
  function FormatTime(time: string): (r: string)
    ensures r == time
  {
    if time == "" then "" else time
  }

  /** `formatDate` for a draft without a date; a set date is rendered by the browser's locale. */
  function FormatMissingDate(date: Option<Date>): (r: Option<string>)
    ensures r.Some? <==> date.None?
    ensures r.Some? ==> r.value == "Data da definire"
  {
    if date.None? then Some("Data da definire") else None
  }

  /** A field, or its placeholder when the field is empty. */
  function OrElse(field: string, placeholder: string): (r: string)
    ensures field != "" ==> r == field
    ensures field == "" ==> r == placeholder
  {
    if field != "" then field else placeholder
  }

  /** The two lines of the place shown under the title, and the place card in the sidebar. */
  datatype PlaceLines = PlaceLines(place: string, detail: string)
  datatype PlaceCard = PlaceCard(title: string, place: string, detail: string, action: string)

  function HeaderPlace(d: Draft): (r: PlaceLines)
    ensures d.eventType.Online? ==> r == PlaceLines("Evento Online", "Link fornito dopo l'acquisto")
    ensures d.eventType.Physical? ==> r.place == OrElse(d.location, "Location da definire")
    ensures d.eventType.Physical? ==> r.detail == OrElse(d.address, "Indirizzo da definire")
  {
    if d.eventType == CreateEvent.Online then PlaceLines("Evento Online", "Link fornito dopo l'acquisto")
    else PlaceLines(OrElse(d.location, "Location da definire"), OrElse(d.address, "Indirizzo da definire"))
  }

  function SidebarPlace(d: Draft): (r: PlaceCard)
    ensures d.eventType.Online?
        ==> r == PlaceCard("Evento Online", "Streaming Online", "Il link verrà fornito dopo l'acquisto", "Dettagli Accesso")
    ensures d.eventType.Physical? ==> r.title == "Posizione" && r.action == "Vedi su Mappa"
    ensures d.eventType.Physical? ==> r.place == HeaderPlace(d).place && r.detail == HeaderPlace(d).detail
  {
    if d.eventType == CreateEvent.Online then
      PlaceCard("Evento Online", "Streaming Online", "Il link verrà fornito dopo l'acquisto", "Dettagli Accesso")
    else
      PlaceCard("Posizione", OrElse(d.location, "Location da definire"),
                OrElse(d.address, "Indirizzo da definire"), "Vedi su Mappa")
  }

  /** An online event's place texts ignore whatever location and address the draft still holds. */
  lemma OnlineIgnoresAddress(d: Draft, location: string, address: string)
    requires d.eventType.Online?
    ensures HeaderPlace(d.(location := location, address := address)) == HeaderPlace(d)
    ensures SidebarPlace(d.(location := location, address := address)) == SidebarPlace(d)
  {
  }

  /** A physical event with both fields filled shows them verbatim, in both places. */
  lemma PhysicalShowsFields(d: Draft)
    requires d.eventType.Physical? && d.location != "" && d.address != ""
    ensures HeaderPlace(d) == PlaceLines(d.location, d.address)
    ensures SidebarPlace(d).place == d.location && SidebarPlace(d).detail == d.address
  {
  }

  /** The visibility label: two named settings, and everything else reads as invitation-only. */
  function VisibilityLabel(visibility: string): (r: string)
    ensures r in {"Pubblico", "Privato", "Su invito"}
    ensures r == "Pubblico" <==> visibility == "public"
    ensures r == "Privato" <==> visibility == "private"
  {
    if visibility == "public" then "Pubblico" else if visibility == "private" then "Privato" else "Su invito"
  }

  /** The texts of one tier's box, at 0-based position `index`. */
  datatype TierLines = TierLines(name: string, price: string, description: string, quantity: string)

  function TierName(t: Tier, index: nat): (r: string)
    ensures t.name != "" ==> r == t.name
    ensures t.name == "" ==> |r| > 10 && r[..10] == "Biglietto "
    ensures t.name == "" ==> (forall i :: 10 <= i < |r| ==> '0' <= r[i] <= '9') && Text.ParseDigits(r[10..]) == index + 1
    ensures t.name == "" ==> r[10] != '0'
  {
    Text.NatToStringRoundTrip(index + 1);
    assert ("Biglietto " + Text.NatToString(index + 1))[10..] == Text.NatToString(index + 1);
    if t.name != "" then t.name else "Biglietto " + Text.NatToString(index + 1)
  }

  /** Unnamed tiers at different positions get different names. */
  lemma UnnamedTiersDistinct(t: Tier, u: Tier, i: nat, j: nat)
    requires t.name == "" && u.name == "" && i != j
    ensures TierName(t, i) != TierName(u, j)
  {
    Text.NatToStringInjective(i + 1, j + 1);
    assert TierName(t, i)[10..] == Text.NatToString(i + 1);
    assert TierName(u, j)[10..] == Text.NatToString(j + 1);
  }

  function TierBox(t: Tier, index: nat): (r: TierLines)
    ensures r.name == TierName(t, index)
    ensures r.price == "€" + OrElse(t.price, "0")
    ensures r.description == OrElse(t.description, "Descrizione biglietto")
    ensures t.quantity == "" ==> r.quantity == "Quantità da definire"
    ensures t.quantity != "" ==> r.quantity == t.quantity + " disponibili"
  {
    TierLines(
      TierName(t, index),
      "€" + (if t.price != "" then t.price else "0"),
      if t.description != "" then t.description else "Descrizione biglietto",
      if t.quantity != "" then t.quantity + " disponibili" else "Quantità da definire")
  }

  /** The "servizi inclusi" section appears exactly when some amenity is ticked. */
  function ShowsAmenities(d: Draft): (r: bool)
    ensures r <==> exists a :: a in d.amenities
  {
    assert |d.amenities| > 0 ==> d.amenities[0] in d.amenities;
    |d.amenities| > 0
  }

  /** Were the component given the wizard's draft, ticking an amenity would open the section, and
      unticking one would close it exactly when it was the only one ticked. */
  lemma AmenityToggleShowsSection(d: Draft, a: string)
    ensures a !in d.amenities ==> ShowsAmenities(CreateEvent.ToggleAmenity(d, a))
    ensures a in d.amenities ==>
      (ShowsAmenities(CreateEvent.ToggleAmenity(d, a)) <==> exists b :: b in d.amenities && b != a)
  {
    var r := CreateEvent.ToggleAmenity(d, a);
    if a in d.amenities && exists b :: b in d.amenities && b != a {
      var b :| b in d.amenities && b != a;
      assert b in r.amenities;
    }
  }

  /** The ticket column: one box per tier, or the single "no tiers" notice. */
  datatype TicketColumn = Boxes(boxes: seq<TierLines>) | NoTiersNotice

  function TicketColumnOf(d: Draft): (r: TicketColumn)
    ensures r.NoTiersNotice? <==> d.ticketTypes == []
    ensures r.Boxes? ==> |r.boxes| == |d.ticketTypes|
    ensures r.Boxes? ==> forall i :: 0 <= i < |r.boxes| ==> r.boxes[i] == TierBox(d.ticketTypes[i], i)
  {
    if |d.ticketTypes| > 0 then
      Boxes(seq(|d.ticketTypes|, i requires 0 <= i < |d.ticketTypes| => TierBox(d.ticketTypes[i], i)))
    else NoTiersNotice
  }

  /** A draft kept valid by the wizard never shows the "no tiers" notice. */
  lemma WizardDraftHasTierBoxes(w: CreateEvent.Wizard)
    requires CreateEvent.Valid(w)
    ensures TicketColumnOf(w.draft).Boxes?
  {
  }

  /** The opening draft previews as a physical event with placeholders everywhere but the tier name. */
  lemma InitialDraftPreview()
    ensures MainTicketPrice(CreateEvent.InitialDraft) == NoPrice
    ensures TotalCapacity(CreateEvent.InitialDraft) == NoCapacity
    ensures HeaderPlace(CreateEvent.InitialDraft) == PlaceLines("Location da definire", "Indirizzo da definire")
    ensures VisibilityLabel(CreateEvent.InitialDraft.visibility) == "Pubblico"
    ensures TicketColumnOf(CreateEvent.InitialDraft)
         == Boxes([TierLines("Standard", "€0", "Descrizione biglietto", "Quantità da definire")])
  {
    var d := CreateEvent.InitialDraft;
    assert TierBox(d.ticketTypes[0], 0) == TierLines("Standard", "€0", "Descrizione biglietto", "Quantità da definire");
  }
}

=== FILE: lists.dfy ===
/** List operations shared by the components: filtering, toggling membership and index removal. */
module Lists {

  /** No element occurs twice. */
  predicate NoDuplicates<T(==,!new)>(xs: seq<T>) {
    forall i, j :: 0 <= i < j < |xs| ==> xs[i] != xs[j]
  }

  /** `a` can be obtained from `b` by deleting elements: order is kept and nothing is added. */
  predicate IsSubsequence<T(==,!new)>(a: seq<T>, b: seq<T>)
    decreases |b|
  {
    a == [] || (b != [] && ((a[0] == b[0] && IsSubsequence(a[1..], b[1..])) || IsSubsequence(a, b[1..])))
  }

  /** JavaScript `xs.filter(p)`: the elements satisfying `p`, in their original order, each as
      often as in `xs`. */
  function Filter<T(!new)>(xs: seq<T>, p: T -> bool): (r: seq<T>)
    ensures |r| <= |xs|
    ensures forall y :: y in r <==> y in xs && p(y)
    ensures forall y :: multiset(r)[y] == if p(y) then multiset(xs)[y] else 0
    ensures IsSubsequence(r, xs)
  {
    if xs == [] then []
    else
      assert xs == [xs[0]] + xs[1..];
      if p(xs[0]) then
        var r := [xs[0]] + Filter(xs[1..], p);
        assert r[1..] == Filter(xs[1..], p);
        r
      else Filter(xs[1..], p)
  }

  /** A subsequence holds each element at most as often as the list it is taken from. */
  lemma {:induction false} SubsequenceMultiset<T(!new)>(a: seq<T>, b: seq<T>)
    requires IsSubsequence(a, b)
    ensures multiset(a) <= multiset(b)
    decreases |b|
  {
    if a != [] {
      assert b == [b[0]] + b[1..];
      if a[0] == b[0] && IsSubsequence(a[1..], b[1..]) {
        SubsequenceMultiset(a[1..], b[1..]);
        assert a == [a[0]] + a[1..];
      } else {
        SubsequenceMultiset(a, b[1..]);
      }
    }
  }

  /** The contract of `Filter` pins the list: a subsequence of `xs` holding every passing element
      as often as `xs` does, and no failing one, is the filter itself. */
  lemma {:induction false} FilterUnique<T(!new)>(xs: seq<T>, p: T -> bool, r: seq<T>)
    requires IsSubsequence(r, xs)
    requires forall y :: multiset(r)[y] == if p(y) then multiset(xs)[y] else 0
    ensures r == Filter(xs, p)
    decreases |xs|
  {
    if xs == [] {
      assert r == [];
    } else {
      var x, t := xs[0], xs[1..];
      assert xs == [x] + t;
      if r != [] && r[0] == x && IsSubsequence(r[1..], t) {
        assert r == [x] + r[1..];
        if p(x) {
          FilterUnique(t, p, r[1..]);
        }
      } else if p(x) {
        assert IsSubsequence(r, t);
        SubsequenceMultiset(r, t);
      } else {
        assert IsSubsequence(r, t);
        forall y ensures multiset(r)[y] == if p(y) then multiset(t)[y] else 0 {
          if p(y) {
            assert y != x;
          }
        }
        FilterUnique(t, p, r);
      }
    }
  }

  /** Every list is a subsequence of itself. */
  lemma {:induction false} SubsequenceReflexive<T(!new)>(xs: seq<T>)
    ensures IsSubsequence(xs, xs)
  {
    if xs != [] {
      SubsequenceReflexive(xs[1..]);
    }
  }

  lemma {:induction false} FilterAppend<T(!new)>(a: seq<T>, b: seq<T>, p: T -> bool)
    ensures Filter(a + b, p) == Filter(a, p) + Filter(b, p)
  {
    if a == [] {
      assert a + b == b;
    } else {
      assert (a + b)[0] == a[0];
      assert (a + b)[1..] == a[1..] + b;
      FilterAppend(a[1..], b, p);
    }
  }

  /** Filtering keeps a list whole when every element passes, and shortens it otherwise. */
  lemma {:induction false} FilterKeepsAll<T(!new)>(xs: seq<T>, p: T -> bool)
    ensures (forall y :: y in xs ==> p(y)) ==> Filter(xs, p) == xs
    ensures (exists y :: y in xs && !p(y)) ==> |Filter(xs, p)| < |xs|
  {
    if xs != [] {
      FilterKeepsAll(xs[1..], p);
      if forall y :: y in xs ==> p(y) {
        forall y | y in xs[1..] ensures p(y) {
          assert y in xs;
        }
      }
      if exists y :: y in xs && !p(y) {
        var y :| y in xs && !p(y);
        if y != xs[0] {
          assert y in xs[1..];
        }
      }
    }
  }

  /** `xs.filter(y => y !== x)`: every occurrence of `x` dropped, the rest kept in order. */
  function RemoveAll<T(==,!new)>(xs: seq<T>, x: T): (r: seq<T>)
    ensures x !in r
    ensures forall y :: y in r <==> y in xs && y != x
    ensures forall y :: multiset(r)[y] == if y == x then 0 else multiset(xs)[y]
    ensures IsSubsequence(r, xs)
    ensures x in xs ==> |r| < |xs|
    ensures x !in xs ==> r == xs
  {
    FilterKeepsAll(xs, y => y != x);
    Filter(xs, y => y != x)
  }

  /** Removal distributes over concatenation. */
  lemma RemoveAllAppend<T(!new)>(a: seq<T>, b: seq<T>, x: T)
    ensures RemoveAll(a + b, x) == RemoveAll(a, x) + RemoveAll(b, x)
  {
    FilterAppend(a, b, y => y != x);
  }

  /** The shared toggle handler: remove every occurrence of a present value, append an absent one. */
  function Toggle<T(==,!new)>(xs: seq<T>, x: T): (r: seq<T>)
    ensures forall y :: y in r <==> (y == x <==> y !in xs)
    ensures x !in xs ==> r == xs + [x]
    ensures x in xs ==> |r| < |xs| && IsSubsequence(r, xs)
    ensures x in xs ==> forall y :: multiset(r)[y] == if y == x then 0 else multiset(xs)[y]
  {
    if x in xs then RemoveAll(xs, x) else xs + [x]
  }

  /** Toggling an absent value twice restores the list exactly. */
  lemma ToggleTwiceAbsent<T(!new)>(xs: seq<T>, x: T)
    requires x !in xs
    ensures Toggle(Toggle(xs, x), x) == xs
  {
    RemoveAllAppend(xs, [x], x);
  }

  /** Toggling any value twice restores membership. */
  lemma ToggleTwiceMembership<T(!new)>(xs: seq<T>, x: T, y: T)
    ensures y in Toggle(Toggle(xs, x), x) <==> y in xs
  {
  }

  /** A toggle keeps a duplicate-free list duplicate-free. */
  lemma ToggleKeepsNoDuplicates<T(!new)>(xs: seq<T>, x: T)
    ensures NoDuplicates(xs) ==> NoDuplicates(Toggle(xs, x))
  {
    if x in xs && NoDuplicates(xs) {
      RemoveAllKeepsNoDuplicates(xs, x);
    }
  }

  lemma {:induction false} FilterKeepsNoDuplicates<T(!new)>(xs: seq<T>, p: T -> bool)
    requires NoDuplicates(xs)
    ensures NoDuplicates(Filter(xs, p))
  {
    if xs != [] {
      assert NoDuplicates(xs[1..]) by {
        forall i, j | 0 <= i < j < |xs[1..]| ensures xs[1..][i] != xs[1..][j] {
          assert xs[1..][i] == xs[i + 1] && xs[1..][j] == xs[j + 1];
        }
      }
      FilterKeepsNoDuplicates(xs[1..], p);
      assert xs[0] !in xs[1..];
    }
  }

  lemma RemoveAllKeepsNoDuplicates<T(!new)>(xs: seq<T>, x: T)
    requires NoDuplicates(xs)
    ensures NoDuplicates(RemoveAll(xs, x))
  {
    FilterKeepsNoDuplicates(xs, y => y != x);
  }

  /** `xs.filter((_, j) => j !== i)`: the element at position `i` dropped, if there is one. */
  function RemoveAt<T(!new)>(xs: seq<T>, i: int): (r: seq<T>)
    ensures 0 <= i < |xs| ==> r == xs[..i] + xs[i + 1..]
    ensures !(0 <= i < |xs|) ==> r == xs
  {
    if xs == [] then []
    else (if i == 0 then [] else [xs[0]]) + RemoveAt(xs[1..], i - 1)
  }
}

=== FILE: login.dfy ===
/** The sign-in form: the submit decision and the password-visibility eye. */
module Login {

  datatype LoginForm = LoginForm(email: string, password: string)

  /** The page state: the form and whether the password is shown in clear. */
  datatype LoginPage = LoginPage(form: LoginForm, showPassword: bool)

  const InitialPage := LoginPage(LoginForm("", ""), false)

  const MissingCredentialsMessage := "Inserisci email e password"

  /** A submit either opens a page or shows an error and stays. */
  datatype LoginOutcome = SignedIn(destination: string) | LoginError(message: string)

  /** `handleSubmit`: both fields non-empty lead to the profile; anything else is the one error. */
  function HandleSubmit(f: LoginForm): (r: LoginOutcome)
    ensures r.SignedIn? <==> f.email != "" && f.password != ""
    ensures r.SignedIn? ==> r.destination == "/profile"
    ensures r.LoginError? ==> r.message == MissingCredentialsMessage
  {
    if f.email != "" && f.password != "" then SignedIn("/profile")
    else LoginError(MissingCredentialsMessage)
  }

  /** The eye button. */
  function TogglePasswordVisibility(p: LoginPage): (r: LoginPage)
    ensures r.form == p.form
    ensures r.showPassword != p.showPassword
  {
    p.(showPassword := !p.showPassword)
  }

  /** Two clicks on the eye restore the page, and the eye never changes what a submit decides. */
  lemma VisibilityIrrelevant(p: LoginPage)
    ensures TogglePasswordVisibility(TogglePasswordVisibility(p)) == p
    ensures HandleSubmit(TogglePasswordVisibility(p).form) == HandleSubmit(p.form)
  {
  }

  /** Submitting the page as it opens is refused. */
  lemma InitialPageRejected()
    ensures HandleSubmit(InitialPage.form) == LoginError(MissingCredentialsMessage)
  {
  }
}

=== FILE: profile.dfy ===
/** The profile page: avatar initials and the name/bio editor. */
module Profile {

  /** The user record the page edits (statistics and preferences are display-only). */
  datatype UserInfo = UserInfo(
    id: string, name: string, email: string, phone: string, location: string,
    joinDate: string, avatar: string, bio: string)

  const MockUser := UserInfo(
    "user123", "Marco Rossi", "marco.rossi@email.com", "+39 333 123 4567", "Milano, Italia",
    "Gennaio 2023", "",
    "Appassionato di eventi musicali e culturali. Organizzo workshop creativi nel tempo libero.")

  /** `name.split(' ')`: the pieces between single spaces, empty pieces included. */
  function SplitOnSpace(s: string): (parts: seq<string>)
    ensures |parts| >= 1
    ensures forall i :: 0 <= i < |parts| ==> ' ' !in parts[i]
    ensures |parts| == 1 + SpaceCount(s)
  {
    if s == [] then [[]]
    else if s[0] == ' ' then [[]] + SplitOnSpace(s[1..])
    else
      var rest := SplitOnSpace(s[1..]);
      [[s[0]] + rest[0]] + rest[1..]
  }

  /** How many spaces `s` holds. */
  function SpaceCount(s: string): nat {
    if s == [] then 0 else (if s[0] == ' ' then 1 else 0) + SpaceCount(s[1..])
  }

  /** Joining pieces back with single spaces. */
  function JoinWithSpace(parts: seq<string>): string
    requires |parts| >= 1
  {
    if |parts| == 1 then parts[0] else parts[0] + " " + JoinWithSpace(parts[1..])
  }

  /** Splitting then joining gives the name back. */
  lemma {:induction false} SplitJoin(s: string)
    ensures JoinWithSpace(SplitOnSpace(s)) == s
  {
    if s != [] {
      SplitJoin(s[1..]);
      var rest := SplitOnSpace(s[1..]);
      if s[0] == ' ' {
        assert [[]] + rest == [[]] + rest;
        assert ([[]] + rest)[1..] == rest;
      } else {
        var parts := [[s[0]] + rest[0]] + rest[1..];
        if |rest| == 1 {
          assert parts == [[s[0]] + rest[0]];
        } else {
          assert parts[1..] == rest[1..];
          assert JoinWithSpace(rest) == rest[0] + " " + JoinWithSpace(rest[1..]);
        }
      }
    }
  }

  /** Joining space-free pieces then splitting gives the pieces back. */
  lemma {:induction false} JoinSplit(parts: seq<string>)
    requires |parts| >= 1
    requires forall i :: 0 <= i < |parts| ==> ' ' !in parts[i]
    ensures SplitOnSpace(JoinWithSpace(parts)) == parts
    decreases |parts|, |parts[0]|
  {
    if |parts| == 1 {
      WordSplit(parts[0]);
    } else if parts[0] == [] {
      JoinSplit(parts[1..]);
      SplitAfterSpace(JoinWithSpace(parts[1..]));
      assert JoinWithSpace(parts) == " " + JoinWithSpace(parts[1..]);
      assert [[]] + parts[1..] == parts;
    } else {
      var w := parts[0];
      var shorter := [w[1..]] + parts[1..];
      assert ' ' !in w[1..] by {
        assert forall c :: c in w[1..] ==> c in w;
      }
      JoinSplit(shorter);
      assert w[0] in w;
      JoinFirstChar(parts);
      SplitAfterChar(w[0], JoinWithSpace(shorter));
      assert shorter[1..] == parts[1..];
      assert [w[0]] + w[1..] == w;
      assert [w] + parts[1..] == parts;
    }
  }

  /** Peeling the first character off the first piece of a join. */
  lemma JoinFirstChar(parts: seq<string>)
    requires |parts| >= 2 && parts[0] != []
    ensures JoinWithSpace(parts) == [parts[0][0]] + JoinWithSpace([parts[0][1..]] + parts[1..])
  {
    var shorter := [parts[0][1..]] + parts[1..];
    assert shorter[1..] == parts[1..];
    assert parts[0] == [parts[0][0]] + parts[0][1..];
  }

  /** A leading space opens an empty first piece. */
  lemma SplitAfterSpace(t: string)
    ensures SplitOnSpace(" " + t) == [[]] + SplitOnSpace(t)
  {
    assert (" " + t)[1..] == t;
  }

  /** A leading non-space joins the first piece. */
  lemma SplitAfterChar(c: char, t: string)
    requires c != ' '
    ensures SplitOnSpace([c] + t) == [[c] + SplitOnSpace(t)[0]] + SplitOnSpace(t)[1..]
  {
    assert ([c] + t)[1..] == t;
  }

  /** A space-free word splits into itself. */
  lemma {:induction false} WordSplit(w: string)
    requires ' ' !in w
    ensures SplitOnSpace(w) == [w]
  {
    if w != [] {
      assert w[0] in w;
      assert forall c :: c in w[1..] ==> c in w;
      WordSplit(w[1..]);
      assert [w[0]] + w[1..] == w;
    }
  }

  /** `.map(n => n[0]).join('')`: the first character of each piece; an empty piece adds nothing. */
  function InitialsOfParts(parts: seq<string>): (r: string)
    ensures |r| <= |parts|
    ensures forall i :: 0 <= i < |parts| && parts[i] != [] ==> parts[i][0] in r
  {
    if parts == [] then []
    else
      var r := (if parts[0] == [] then [] else [parts[0][0]]) + InitialsOfParts(parts[1..]);
      assert forall i :: 1 <= i < |parts| ==> parts[i] == parts[1..][i - 1];
      r
  }

  /** The avatar fallback text: `name.split(' ').map(n => n[0]).join('')`. */
  function Initials(name: string): (r: string)
    ensures |r| <= 1 + SpaceCount(name)
    ensures forall c :: c in r ==> c in name && c != ' '
  {
    WordStartsSplit(name);
    InitialsOfParts(SplitOnSpace(name))
  }

  /** The characters of `s` that open a word: non-spaces at the start or right after a space.
      `afterSpace` says whether the character before `s` was a space (or `s` opens the name). */
  function WordStarts(s: string, afterSpace: bool): (r: string)
    ensures forall c :: c in r ==> c in s && c != ' '
  {
    if s == [] then []
    else (if afterSpace && s[0] != ' ' then [s[0]] else []) + WordStarts(s[1..], s[0] == ' ')
  }

  /** The initials are exactly the characters that open a word of the name, in order. */
  lemma InitialsAreWordStarts(name: string)
    ensures Initials(name) == WordStarts(name, true)
    ensures forall c :: c in Initials(name) ==> c in name && c != ' '
  {
    WordStartsSplit(name);
  }

  lemma {:induction false} WordStartsSplit(s: string)
    ensures WordStarts(s, true) == InitialsOfParts(SplitOnSpace(s))
    ensures WordStarts(s, false) == InitialsOfParts(SplitOnSpace(s)[1..])
  {
    if s != [] {
      WordStartsSplit(s[1..]);
      var rest := SplitOnSpace(s[1..]);
      if s[0] == ' ' {
        assert ([[]] + rest)[1..] == rest;
      } else {
        var parts := [[s[0]] + rest[0]] + rest[1..];
        assert parts[1..] == rest[1..];
      }
    }
  }

  /** A two-word name made of space-free words shows the two first letters. */
  lemma InitialsOfTwoWords(a: string, b: string)
    requires a != [] && b != [] && ' ' !in a && ' ' !in b
    ensures Initials(a + " " + b) == [a[0], b[0]]
  {
    var parts := [a, b];
    assert parts[1..] == [b];
    assert JoinWithSpace(parts) == a + " " + b;
    JoinSplit(parts);
    assert InitialsOfParts([b]) == [b[0]] + InitialsOfParts([]);
    assert InitialsOfParts(parts) == [a[0]] + InitialsOfParts([b]);
  }

  /** The mock user's avatar shows "MR". */
  lemma MockUserInitials()
    ensures Initials(MockUser.name) == "MR"
  {
    assert MockUser.name == "Marco" + " " + "Rossi";
    InitialsOfTwoWords("Marco", "Rossi");
  }

  /** The page state: whether the editor is open, and the current record. */
  datatype ProfilePage = ProfilePage(isEditing: bool, user: UserInfo)

  const InitialProfile := ProfilePage(false, MockUser)

  /** The pencil button flips the editor. */
  function ToggleEditing(p: ProfilePage): (r: ProfilePage)
    ensures r.isEditing != p.isEditing && r.user == p.user
  {
    p.(isEditing := !p.isEditing)
  }

  /** "Salva" and "Annulla" both just close the editor: the record already holds the edits, and
      cancelling does not restore it. */
  function CloseEditor(p: ProfilePage): (r: ProfilePage)
    ensures !r.isEditing && r.user == p.user
  {
    p.(isEditing := false)
  }

  /** Typing in the name field replaces the name and nothing else. */
  function EditName(p: ProfilePage, v: string): (r: ProfilePage)
    ensures r.user.name == v && r.isEditing == p.isEditing
    ensures r.user.(name := p.user.name) == p.user
  {
    p.(user := p.user.(name := v))
  }

  /** Typing in the bio field replaces the bio and nothing else. */
  function EditBio(p: ProfilePage, v: string): (r: ProfilePage)
    ensures r.user.bio == v && r.isEditing == p.isEditing
    ensures r.user.(bio := p.user.bio) == p.user
  {
    p.(user := p.user.(bio := v))
  }

  /** Toggling twice restores the page. */
  lemma ToggleTwice(p: ProfilePage)
    ensures ToggleEditing(ToggleEditing(p)) == p
  {
  }

  /** Edits made in the editor survive closing it, by either button. */
  lemma EditsSurviveClosing(p: ProfilePage, name: string, bio: string)
    ensures CloseEditor(EditBio(EditName(p, name), bio)).user.name == name
    ensures CloseEditor(EditBio(EditName(p, name), bio)).user.bio == bio
    ensures CloseEditor(EditBio(EditName(p, name), bio)).user == p.user.(name := name, bio := bio)
  {
  }

  /** Name and bio edits touch different fields, so their order does not matter. */
  lemma EditsCommute(p: ProfilePage, name: string, bio: string)
    ensures EditBio(EditName(p, name), bio) == EditName(EditBio(p, bio), name)
  {
  }
}

=== FILE: qr_code.dfy ===
/** The event QR panel: the download file name, the event link and the share fallback. */
module QrCode {
  import opened Basics
  import Lists
  import Text

  /** `s.replace(/\s+/g, '-')`: every maximal run of whitespace becomes one dash. */
  function CollapseSpaces(s: string): (r: string)
    ensures Text.NoSpace(r)
    ensures Text.NoSpace(s) ==> r == s
    ensures |r| <= |s|
    decreases |s|
  {
    if s == [] then []
    else if Text.IsSpace(s[0]) then "-" + CollapseSpaces(s[Text.LeadingSpace(s)..])
    else [s[0]] + CollapseSpaces(s[1..])
  }

  /** A whitespace run followed by a non-space (or nothing) is exactly the run's length long. */
  lemma {:induction false} LeadingSpaceOfRun(sp: string, t: string)
    requires forall i :: 0 <= i < |sp| ==> Text.IsSpace(sp[i])
    requires t == [] || !Text.IsSpace(t[0])
    ensures Text.LeadingSpace(sp + t) == |sp|
  {
    if sp != [] {
      assert (sp + t)[1..] == sp[1..] + t;
      LeadingSpaceOfRun(sp[1..], t);
    } else {
      assert sp + t == t;
    }
  }

  /** A space-free word, one whitespace run of any length, and the rest: the run turns into a single
      dash between the word and the collapsed rest. */
  lemma {:induction false} RunBecomesOneDash(w: string, sp: string, t: string)
    requires Text.NoSpace(w)
    requires |sp| >= 1 && forall i :: 0 <= i < |sp| ==> Text.IsSpace(sp[i])
    requires t == [] || !Text.IsSpace(t[0])
    ensures CollapseSpaces(w + sp + t) == w + "-" + CollapseSpaces(t)
  {
    if w == [] {
      assert w + sp + t == sp + t;
      LeadingSpaceOfRun(sp, t);
      assert (sp + t)[|sp|..] == t;
    } else {
      assert (w + sp + t)[1..] == w[1..] + sp + t;
      RunBecomesOneDash(w[1..], sp, t);
      assert w == [w[0]] + w[1..];
    }
  }

  /** Collapsing is idempotent: its output holds no whitespace left to collapse. */
  lemma CollapseIdempotent(s: string)
    ensures CollapseSpaces(CollapseSpaces(s)) == CollapseSpaces(s)
  {
  }

  /** The characters that carry the title's text: neither whitespace nor a dash, in order. */
  function Kept(s: string): (r: string)
    ensures forall c :: c in r ==> c in s && !Text.IsSpace(c) && c != '-'
    ensures Lists.IsSubsequence(r, s)
  {
    if s == [] then []
    else if Text.IsSpace(s[0]) || s[0] == '-' then Kept(s[1..])
    else
      var r := [s[0]] + Kept(s[1..]);
      assert r[1..] == Kept(s[1..]);
      r
  }

  /** A whitespace prefix holds nothing to keep. */
  lemma {:induction false} KeptSkipsSpaces(s: string, k: nat)
    requires k <= |s| && forall i :: 0 <= i < k ==> Text.IsSpace(s[i])
    ensures Kept(s) == Kept(s[k..])
  {
    if k > 0 {
      assert s[1..][k - 1..] == s[k..];
      KeptSkipsSpaces(s[1..], k - 1);
    }
  }

  /** Collapsing loses no text and adds none: only whitespace turns into dashes. */
  lemma {:induction false} CollapseKeepsText(s: string)
    ensures Kept(CollapseSpaces(s)) == Kept(s)
    decreases |s|
  {
    if s != [] {
      if Text.IsSpace(s[0]) {
        var k := Text.LeadingSpace(s);
        CollapseKeepsText(s[k..]);
        KeptSkipsSpaces(s, k);
        assert ("-" + CollapseSpaces(s[k..]))[1..] == CollapseSpaces(s[k..]);
      } else {
        CollapseKeepsText(s[1..]);
        assert ([s[0]] + CollapseSpaces(s[1..]))[1..] == CollapseSpaces(s[1..]);
      }
    }
  }

  /** Lowercasing commutes with keeping the text. */
  lemma {:induction false} LowerKeepsText(s: string)
    ensures Kept(Text.Lower(s)) == Text.Lower(Kept(s))
  {
    if s != [] {
      LowerKeepsText(s[1..]);
      Text.LowerKeepsSpace(s[0]);
      var l := Text.Lower(s);
      assert l[1..] == Text.Lower(s[1..]);
      if !(Text.IsSpace(s[0]) || s[0] == '-') {
        assert Text.Lower([s[0]] + Kept(s[1..])) == [Text.LowerChar(s[0])] + Text.Lower(Kept(s[1..]));
      }
    }
  }

  /** Lowercasing never introduces whitespace. */
  lemma LowerNoSpace(s: string)
    requires Text.NoSpace(s)
    ensures Text.NoSpace(Text.Lower(s))
  {
    forall i | 0 <= i < |s| ensures !Text.IsSpace(Text.Lower(s)[i]) {
      Text.LowerKeepsSpace(s[i]);
    }
  }

  /** The download name: "qr-", the title with whitespace runs dashed and lowercased, ".svg". */
  function DownloadFileName(title: string): (r: string)
    ensures |r| >= 7 && r[..3] == "qr-" && r[|r| - 4..] == ".svg"
    ensures Text.NoSpace(r[3..|r| - 4])
    ensures Kept(r[3..|r| - 4]) == Text.Lower(Kept(title))
    ensures r[3..|r| - 4] == Text.Lower(CollapseSpaces(title))
  {
    var slug := Text.Lower(CollapseSpaces(title));
    LowerNoSpace(CollapseSpaces(title));
    LowerKeepsText(CollapseSpaces(title));
    CollapseKeepsText(title);
    var r := "qr-" + slug + ".svg";
    assert r[3..|r| - 4] == slug;
    r
  }

  /** The download name is the prefix, the lowercased collapsed title and the suffix. */
  lemma DownloadFileNameParts(title: string)
    ensures DownloadFileName(title) == "qr-" + Text.Lower(CollapseSpaces(title)) + ".svg"
  {
    var r := DownloadFileName(title);
    assert r == r[..3] + r[3..|r| - 4] + r[|r| - 4..];
  }

  /** Lowercasing leaves a dash between two pieces in place. */
  lemma LowerAroundDash(w: string, u: string)
    ensures Text.Lower(w + "-" + u) == Text.Lower(w) + "-" + Text.Lower(u)
  {
    var l, m := Text.Lower(w + "-" + u), Text.Lower(w) + "-" + Text.Lower(u);
    assert |l| == |m|;
    forall i | 0 <= i < |l| ensures l[i] == m[i] {
      if i < |w| {
        assert (w + "-" + u)[i] == w[i];
      } else if i == |w| {
        assert (w + "-" + u)[i] == '-';
      } else {
        assert (w + "-" + u)[i] == u[i - |w| - 1];
      }
    }
  }

  /** In the download name too, a whitespace run between a word and the rest becomes one dash. */
  lemma DownloadRunBecomesOneDash(w: string, sp: string, t: string)
    requires Text.NoSpace(w)
    requires |sp| >= 1 && forall i :: 0 <= i < |sp| ==> Text.IsSpace(sp[i])
    requires t == [] || !Text.IsSpace(t[0])
    ensures DownloadFileName(w + sp + t)
         == "qr-" + (Text.Lower(w) + "-" + Text.Lower(CollapseSpaces(t))) + ".svg"
  {
    var title := w + sp + t;
    var ct := CollapseSpaces(t);
    assert CollapseSpaces(title) == w + "-" + ct by {
      RunBecomesOneDash(w, sp, t);
    }
    assert Text.Lower(CollapseSpaces(title)) == Text.Lower(w) + "-" + Text.Lower(ct) by {
      LowerAroundDash(w, ct);
    }
    DownloadFileNameParts(title);
  }

  /** `${origin}/event/${eventId}`, the link the code encodes. */
  function EventUrl(origin: string, eventId: string): (r: string)
    ensures |r| == |origin| + 7 + |eventId|
    ensures r[..|origin|] == origin && r[|origin|..|origin| + 7] == "/event/"
    ensures r[|origin| + 7..] == eventId
  {
    origin + "/event/" + eventId
  }

  /** Reading the event id back out of a link on a known origin. */
  function EventIdOf(origin: string, url: string): (r: Option<string>)
    ensures r.Some? <==> |url| >= |origin| + 7 && url[..|origin| + 7] == origin + "/event/"
    ensures r.Some? ==> EventUrl(origin, r.value) == url
  {
    if |url| >= |origin| + 7 && url[..|origin| + 7] == origin + "/event/" then
      var id := url[|origin| + 7..];
      assert url == url[..|origin| + 7] + id;
      Some(id)
    else None
  }

  /** The link determines the event: parsing it gives the id back. */
  lemma EventUrlRoundTrip(origin: string, eventId: string)
    ensures EventIdOf(origin, EventUrl(origin, eventId)) == Some(eventId)
  {
    var u := EventUrl(origin, eventId);
    assert u[..|origin| + 7] == origin + "/event/";
  }

  /** Different events on one origin get different links. */
  lemma EventUrlInjective(origin: string, a: string, b: string)
    requires a != b
    ensures EventUrl(origin, a) != EventUrl(origin, b)
  {
    EventUrlRoundTrip(origin, a);
    EventUrlRoundTrip(origin, b);
  }

  /** The panel's props and the one browser fact the share button depends on. */
  datatype Context = Context(origin: string, eventId: string, eventTitle: string, nativeShare: bool)

  /** What a button hands to the browser. */
  datatype Effect =
    | NoEffect
    | DownloadFile(fileName: string)
    | ClipboardWrite(text: string)
    | NativeShare(title: string, text: string, url: string)

  /** The buttons: "Genera Codice QR" before the code exists, the three actions after. */
  datatype QrAction = Generate | Download | ShareLink | CopyLink

  predicate Offered(generated: bool, a: QrAction) {
    if a == Generate then !generated else generated
  }

  /** The copy button writes the event link to the clipboard. */
  function CopyLinkEffect(ctx: Context): (e: Effect)
    ensures e.ClipboardWrite? && EventIdOf(ctx.origin, e.text) == Some(ctx.eventId)
  {
    EventUrlRoundTrip(ctx.origin, ctx.eventId);
    ClipboardWrite(EventUrl(ctx.origin, ctx.eventId))
  }

  /** The share button: the native sheet when the browser has one, otherwise a copied link. */
  function ShareEffect(ctx: Context): (e: Effect)
    ensures e.NativeShare? <==> ctx.nativeShare
    ensures !ctx.nativeShare ==> e == CopyLinkEffect(ctx)
    ensures e.NativeShare? ==>
      e.title == ctx.eventTitle && e.text == "Partecipa a: " + ctx.eventTitle &&
      EventIdOf(ctx.origin, e.url) == Some(ctx.eventId)
  {
    EventUrlRoundTrip(ctx.origin, ctx.eventId);
    if ctx.nativeShare then
      NativeShare(ctx.eventTitle, "Partecipa a: " + ctx.eventTitle, EventUrl(ctx.origin, ctx.eventId))
    else CopyLinkEffect(ctx)
  }

  /** One button press: the new `qrGenerated` flag and what goes to the browser. */
  function Press(ctx: Context, generated: bool, a: QrAction): (r: (bool, Effect))
    requires Offered(generated, a)
    ensures r.0 <==> generated || a == Generate
    ensures r.1.DownloadFile? <==> a == Download
    ensures r.1.DownloadFile? ==> r.1.fileName == DownloadFileName(ctx.eventTitle)
    ensures a == Generate <==> r.1 == NoEffect
    ensures a == ShareLink ==> r.1 == ShareEffect(ctx)
    ensures a == CopyLink ==> r.1 == CopyLinkEffect(ctx)
  {
    match a
    case Generate => (true, NoEffect)
    case Download => (generated, DownloadFile(DownloadFileName(ctx.eventTitle)))
    case ShareLink => (generated, ShareEffect(ctx))
    case CopyLink => (generated, CopyLinkEffect(ctx))
  }

  /** The flag after a run of presses, each on a button the panel shows at that moment. */
  function RunPresses(ctx: Context, generated: bool, acts: seq<QrAction>): Option<bool>
    decreases |acts|
  {
    if acts == [] then Some(generated)
    else if !Offered(generated, acts[0]) then None
    else RunPresses(ctx, Press(ctx, generated, acts[0]).0, acts[1..])
  }

  /** The code is never un-generated, and the panel opens with it not generated. */
  lemma {:induction false} GeneratedNeverReverts(ctx: Context, generated: bool, acts: seq<QrAction>)
    requires generated
    ensures RunPresses(ctx, generated, acts).Some? ==> RunPresses(ctx, generated, acts) == Some(true)
    decreases |acts|
  {
    if acts != [] && Offered(generated, acts[0]) {
      GeneratedNeverReverts(ctx, Press(ctx, generated, acts[0]).0, acts[1..]);
    }
  }

  /** From the opening state, any accepted run that contains a press has generated the code:
      the only button on offer at first is "Genera Codice QR". */
  lemma {:induction false} FirstPressGenerates(ctx: Context, acts: seq<QrAction>)
    requires acts != [] && RunPresses(ctx, false, acts).Some?
    ensures acts[0] == Generate
    ensures RunPresses(ctx, false, acts) == Some(true)
  {
    GeneratedNeverReverts(ctx, true, acts[1..]);
  }
}

=== FILE: register.dfy ===
/** The sign-up form: its fields, the account-type cards and the submit handler's ordered checks. */
module Register {

  datatype RegisterForm = RegisterForm(
    firstName: string,
    lastName: string,
    email: string,
    password: string,
    confirmPassword: string,
    accountType: string,
    city: string,
    acceptTerms: bool,
    acceptMarketing: bool)

  const InitialForm := RegisterForm("", "", "", "", "", "user", "", false, false)

  const MissingFieldsMessage := "Compila tutti i campi obbligatori"
  const MismatchMessage := "Le password non coincidono"
  const TermsMessage := "Devi accettare i termini e condizioni"

  /** What a submit decides: an error notice, or a welcome notice and the page to open next. */
  datatype RegisterOutcome = Rejected(message: string) | Registered(welcome: string, destination: string)

  /** The four fields the first check insists on. */
  predicate RequiredFilled(f: RegisterForm) {
    f.firstName != "" && f.lastName != "" && f.email != "" && f.password != ""
  }

  /** `handleSubmit`: missing fields first, then the password match, then the terms; a form that
      passes all three is welcomed and routed by account type. */
  function HandleSubmit(f: RegisterForm): (r: RegisterOutcome)
    ensures r == Rejected(MissingFieldsMessage) <==> !RequiredFilled(f)
    ensures r == Rejected(MismatchMessage) <==> RequiredFilled(f) && f.password != f.confirmPassword
    ensures r == Rejected(TermsMessage)
        <==> RequiredFilled(f) && f.password == f.confirmPassword && !f.acceptTerms
    ensures r.Registered? <==> RequiredFilled(f) && f.password == f.confirmPassword && f.acceptTerms
    ensures r.Rejected? ==> r.message in {MissingFieldsMessage, MismatchMessage, TermsMessage}
    ensures r.Registered? ==> (r.destination == "/host/dashboard" <==> f.accountType == "host")
    ensures r.Registered? ==> r.destination in {"/host/dashboard", "/profile"}
  {
    if !RequiredFilled(f) then Rejected(MissingFieldsMessage)
    else if f.password != f.confirmPassword then Rejected(MismatchMessage)
    else if !f.acceptTerms then Rejected(TermsMessage)
    else Registered("Benvenuto " + f.firstName + "! Il tuo account è stato creato.",
                    if f.accountType == "host" then "/host/dashboard" else "/profile")
  }

  /** The city and the marketing consent never change the outcome. */
  lemma OptionalFieldsIgnored(f: RegisterForm, city: string, marketing: bool)
    ensures HandleSubmit(f.(city := city, acceptMarketing := marketing)) == HandleSubmit(f)
  {
  }

  /** With the required fields filled, an empty confirmation is reported as a mismatch. */
  lemma EmptyConfirmationIsMismatch(f: RegisterForm)
    requires RequiredFilled(f) && f.confirmPassword == ""
    ensures HandleSubmit(f) == Rejected(MismatchMessage)
  {
  }

  /** A form left as it opens is rejected for missing fields. */
  lemma InitialFormRejected()
    ensures HandleSubmit(InitialForm) == Rejected(MissingFieldsMessage)
  {
  }

  /** An account-type card: only the account type changes. */
  function SelectAccountType(f: RegisterForm, accountType: string): (r: RegisterForm)
    ensures r.accountType == accountType
    ensures r.(accountType := f.accountType) == f
  {
    f.(accountType := accountType)
  }

  /** Picking the organiser card on an otherwise valid form routes to the host dashboard; picking
      the participant card routes to the profile. Only the destination differs. */
  lemma AccountTypeDecidesDestination(f: RegisterForm)
    requires HandleSubmit(f).Registered?
    ensures HandleSubmit(SelectAccountType(f, "host")).destination == "/host/dashboard"
    ensures HandleSubmit(SelectAccountType(f, "user")).destination == "/profile"
    ensures HandleSubmit(SelectAccountType(f, "host")).welcome == HandleSubmit(f).welcome
  {
  }
}

=== FILE: text.dfy ===
/** String operations the components borrow from JavaScript: whitespace, `trim`, `toLowerCase`,
    `includes` and the decimal rendering of a number inside a template literal. */
module Text {

  /** ECMAScript WhiteSpace and LineTerminator code points: the set that both `\s` and `trim` use. */
  predicate IsSpace(c: char) {
    || c == ' ' || c == '\t' || c == '\n' || c == '\r' || c == '\U{000B}' || c == '\U{000C}'
    || c == '\U{00A0}' || c == '\U{1680}' || ('\U{2000}' <= c <= '\U{200A}')
    || c == '\U{2028}' || c == '\U{2029}' || c == '\U{202F}' || c == '\U{205F}'
    || c == '\U{3000}' || c == '\U{FEFF}'
  }

  /** The string holds no whitespace character. */
  predicate NoSpace(s: string) {
    forall i :: 0 <= i < |s| ==> !IsSpace(s[i])
  }

  /** The length of the whitespace run that opens `s`. */
  function LeadingSpace(s: string): (k: nat)
    ensures k <= |s|
    ensures forall i :: 0 <= i < k ==> IsSpace(s[i])
    ensures k < |s| ==> !IsSpace(s[k])
  {
    if s != [] && IsSpace(s[0]) then 1 + LeadingSpace(s[1..]) else 0
  }

  /** The position where the whitespace run that closes `s` begins. */
  function ContentEnd(s: string): (m: nat)
    ensures m <= |s|
    ensures forall i :: m <= i < |s| ==> IsSpace(s[i])
    ensures m > 0 ==> !IsSpace(s[m - 1])
  {
    if s != [] && IsSpace(s[|s| - 1]) then ContentEnd(s[..|s| - 1]) else |s|
  }

  /** JavaScript `s.trim()`: both whitespace runs at the ends removed. */
  function Trim(s: string): (r: string)
    ensures LeadingSpace(s) + |r| <= |s| && r == s[LeadingSpace(s)..LeadingSpace(s) + |r|]
    ensures r != [] ==> !IsSpace(r[0]) && !IsSpace(r[|r| - 1])
    ensures forall j :: LeadingSpace(s) + |r| <= j < |s| ==> IsSpace(s[j])
  {
    var k := LeadingSpace(s);
    var t := s[k..];
    var r := t[..ContentEnd(t)];
    assert forall j :: k + |r| <= j < |s| ==> s[j] == t[j - k];
    r
  }

  /** `s.trim()` is truthy exactly when `s` holds a character that is not whitespace. */
  lemma TrimNonEmptyIff(s: string)
    ensures Trim(s) != [] <==> exists i :: 0 <= i < |s| && !IsSpace(s[i])
  {
    var k := LeadingSpace(s);
    var t := s[k..];
    var m := ContentEnd(t);
    if m > 0 {
      assert !IsSpace(s[k + m - 1]) by { assert t[m - 1] == s[k + m - 1]; }
    }
    if exists j :: 0 <= j < |s| && !IsSpace(s[j]) {
      var j :| 0 <= j < |s| && !IsSpace(s[j]);
      assert t[j - k] == s[j];
      assert j - k < m;
    }
  }

  /** ASCII `toLowerCase` of one character; every other character is left alone. */
  function LowerChar(c: char): (r: char)
    ensures 'A' <= c <= 'Z' ==> 'a' <= r <= 'z' && r as int - c as int == 32
    ensures !('A' <= c <= 'Z') ==> r == c
  {
    if 'A' <= c <= 'Z' then (c as int + 32) as char else c
  }

  /** `s.toLowerCase()`, character by character. */
  function Lower(s: string): (r: string)
    ensures |r| == |s|
    ensures forall i :: 0 <= i < |s| ==> r[i] == LowerChar(s[i])
  {
    if s == [] then [] else [LowerChar(s[0])] + Lower(s[1..])
  }

  /** Lowercasing never produces whitespace from a non-whitespace character, nor the reverse. */
  lemma LowerKeepsSpace(c: char)
    ensures IsSpace(LowerChar(c)) <==> IsSpace(c)
  {
  }

  /** `needle` occurs at position `i` of `hay`. */
  predicate OccursAt(hay: string, needle: string, i: int) {
    0 <= i && i + |needle| <= |hay| && hay[i..i + |needle|] == needle
  }

  /** Dropping the first character of the haystack shifts every occurrence one place left. */
  lemma OccursShift(hay: string, needle: string, i: nat)
    requires hay != []
    ensures OccursAt(hay[1..], needle, i) <==> OccursAt(hay, needle, i + 1)
  {
    if i + 1 + |needle| <= |hay| {
      assert hay[1..][i..i + |needle|] == hay[i + 1..i + 1 + |needle|];
    }
  }

  /** JavaScript `hay.includes(needle)`: some window of `hay` equals `needle`. */
  function Contains(hay: string, needle: string): (r: bool)
    ensures r <==> exists i :: OccursAt(hay, needle, i)
    decreases |hay|
  {
    if |needle| > |hay| then
      false
    else if hay[..|needle|] == needle then
      assert OccursAt(hay, needle, 0);
      true
    else
      var r := Contains(hay[1..], needle);
      assert r <==> exists i :: OccursAt(hay, needle, i) by {
        forall i: nat ensures OccursAt(hay[1..], needle, i) <==> OccursAt(hay, needle, i + 1) {
          OccursShift(hay, needle, i);
        }
        assert !OccursAt(hay, needle, 0);
        assert forall i :: OccursAt(hay, needle, i) ==> i >= 1 && OccursAt(hay[1..], needle, i - 1);
      }
      r
  }

  /** The character of a decimal digit. */
  function DigitChar(d: nat): (c: char)
    requires d < 10
    ensures '0' <= c <= '9' && c as int - '0' as int == d
  {
    ('0' as int + d) as char
  }

  /** A number as a template literal writes it: decimal, no leading zeros. */
  function NatToString(n: nat): (r: string)
    ensures |r| >= 1
    ensures forall i :: 0 <= i < |r| ==> '0' <= r[i] <= '9'
    ensures r[0] == '0' ==> n == 0
  {
    if n < 10 then [DigitChar(n)] else NatToString(n / 10) + [DigitChar(n % 10)]
  }

  /** The value of a string of decimal digits. */
  function ParseDigits(s: string): (n: nat)
    requires forall i :: 0 <= i < |s| ==> '0' <= s[i] <= '9'
  {
    if s == [] then 0 else 10 * ParseDigits(s[..|s| - 1]) + (s[|s| - 1] as int - '0' as int)
  }

  /** Reading back the rendering gives the number. */
  lemma {:induction false} NatToStringRoundTrip(n: nat)
    ensures ParseDigits(NatToString(n)) == n
  {
    if n >= 10 {
      NatToStringRoundTrip(n / 10);
      var s := NatToString(n);
      assert s[..|s| - 1] == NatToString(n / 10);
    }
  }

  /** Different numbers render differently. */
  lemma NatToStringInjective(a: nat, b: nat)
    requires a != b
    ensures NatToString(a) != NatToString(b)
  {
    NatToStringRoundTrip(a);
    NatToStringRoundTrip(b);
  }
}
